=== FILE: README.md ===
# Space Invaders simulation rules in Dafny

This project models the game rules of `spaceinvaders.py`, a two-player Space
Invaders written for pygame. In it a human ship and an AI-controlled ship
shoot at a shared 5 x 10 enemy formation. The ships start at x 200 and x 600.
The middle line at x 400 decides which side a kill is scored to. When the two
compete, the AI's left wall is x 410, just right of the middle line; it only
limits the AI's moves when no bullet threatens the ship. Each side has its own score and three life
tokens. Only the integer
simulation is modelled: rendering, sound and event polling are not.

- `wrappers.dfy` (`Wrappers`): the `Option` type.
- `entities.dfy` (`Entities`): the per-entity steps.
  - A ship's key-driven move, clamped at the screen edges.
  - A bullet's vertical step and its removal off screen.
  - The two-frame enemy animation.
  - The mystery ship's drift and its 25-second timer.
  - The lifetime phases of the three explosion kinds.
  - The bullet step of the sprite update over a whole pool.
- `formation.dfy` (`Formation`): the enemy group `EnemiesGroup`, which holds:
  - the grid of optional enemies;
  - the sorted list of alive columns, and the left and right edge columns that `kill` walks inward;
  - the speed-up rule;
  - the choice of the lowest shooter in a column;
  - the timed lockstep move and descent with the running `bottom`;
  - the initial layout of `make_enemies`.

  The group invariant is `Shape`. It says that every enemy sits in its own cell, that `aliveColumns` lists exactly the columns that still hold an enemy, in increasing order, and that the edges bound the alive columns. `Kill`, `RemoveInternal`, `Update` and `MakeEnemies` all establish or preserve it.
- `scoring.dfy` (`Scoring`): the row-to-points table of `calculate_score`, and the rule that decides which side is credited.
- `round.dfy` (`RoundSetup`): the state in which `reset` creates the ships, the mystery ship and the formation of a new round.
- `ai.dfy` (`OpponentAI`): `updateAI`, the greedy one-frame controller of the AI ship. It is specified by the pure decision `Steer` and the lane predicates over the enemy bullets.
- `game.dfy` (`Game`): the round rules of the `SpaceInvaders` object.
  - Life tokens and the game-over flag.
  - Scoring of kills.
  - Ship hits and ground contact.
  - The 900 ms respawn gate.
  - The shared player-bullet pool.
  - The enemy fire cadence.
  - The menu and game-over flag transitions.

Time (`time.get_ticks`) is an integer parameter. Each `random.choice` is a
caller-supplied value constrained to the legal set:
- a column from `aliveColumns`;
- mystery points from {50, 100, 150, 300}.

The keys held, the number of space presses, the cooperate flag and the
outcome of pixel collisions are inputs too. Collision outcomes are given as
which enemy, which ship, or which ship overlapping the formation.

Some behaviours of the code are easy to miss. The model follows the code in each:
- `update_speed` never restores `moveTime` to 600. It sets 400 when 0 or 2-10 enemies remain, so `moveTime` goes from 200 back to 400 when the last enemy dies (`NextMoveTime`).
- `kill` walks at most one edge per removal, because of the `elif`. The right edge takes precedence when the killed enemy's column is both edges (`Kill`).
- A won round (no enemies, no explosions) does not advance to a next round. It shows the end screen and returns to the menu, whose key release calls `reset(0, 0)`, which clears both scores (`ShowGameOver`, `StartFromMenu`). The starting height `enemyPosition` is always put back to 65.
- `update` does not check for an empty formation. On an empty group it still advances `timer`, `moveNumber` and `direction`, and a descent sets `bottom` to 0 (`Update`, `MaxExtentOfEmpty`). This happens while the last explosions play out, because the main loop waits for both the enemies and the explosions to be gone (`RoundWonWhenNoColumns`).
- `gameOver` is not cleared by the menu. The main loop tests `startGame` before `gameOver`, so a new game runs anyway (`StartFromMenu`).

## Model

| member | source | states |
|---|---|---|
| Entities.ShipStep | spaceinvaders.py:55-62 | with only the left key held the ship moves left by its speed exactly while x > 10, with only the right key held it moves right exactly while x < 740; any key move changes x by -speed, 0 or +speed, never left without the left key, never right without the right key; a ship inside [5, 745] stays inside it |
| Entities.Ship.constructor | spaceinvaders.py:42-53 | a new ship starts at x 200 (human) or 600 (AI), y 540, direction -1, speed 5 |
| Entities.Ship.Update | spaceinvaders.py:55-62 | only x changes, by `ShipStep` with the human's arrow keys or the AI's A/D keys; x stays in [5, 745] |
| Entities.BulletUpdate | spaceinvaders.py:74-78 | a bullet moves speed x direction vertically with x unchanged, and is removed exactly when the new y is below 15 or above 600 |
| Entities.HomeX | spaceinvaders.py:49-52 | a ship's home x is left of the middle line (x < 400) exactly for the human ship |
| Entities.Advance | spaceinvaders.py:74-78 | a pool update never grows the pool and leaves only bullets with y in [15, 600] |
| Entities.AdvanceKeepsOnScreen | spaceinvaders.py:74-78 | a bullet is in the updated pool if and only if it is the step of some bullet of the old pool that stays on screen |
| Entities.AdvanceAppend | spaceinvaders.py:74-78 | the pool update is bullet by bullet: updating two concatenated pools is concatenating their updates, so the new pool has one bullet per surviving old bullet, in order |
| Entities.AdvanceOne | spaceinvaders.py:74-78 | a one-bullet pool becomes its moved bullet if it stays on screen and empty otherwise |
| Entities.ToggleIndex | spaceinvaders.py:92-96 | the animation frame of a two-image enemy alternates 0, 1, 0, ... |
| Entities.Mystery.constructor | spaceinvaders.py:217-228 | a mystery ship starts at (-80, 45), moving right, row 5, 25 s wait, timer at creation, entry cue armed |
| Entities.Mystery.Update | spaceinvaders.py:230-255 | after 25 s it drifts 2 px in its direction within (-100, 840); past 830 or before -90 it turns, re-arms the cue and restarts its wait only on a frame it moved; x stays in [-101, 841] |
| Entities.EnemyExplosionPhase | spaceinvaders.py:271-278 | small image up to 100 ms, large up to 200 ms, removed exactly after 400 ms |
| Entities.MysteryExplosionPhase | spaceinvaders.py:288-293 | the score text shows up to 200 ms and in (400, 600] ms, and is removed exactly after 600 ms |
| Entities.ShipExplosionPhase | spaceinvaders.py:303-308 | the ship image shows exactly in (300, 600] ms, and is removed exactly after 900 ms |
| Formation.ColumnDeadMeansEmpty | spaceinvaders.py:165-167 | `is_column_dead` holds exactly when no row of the column holds an enemy |
| Formation.Count | spaceinvaders.py:175-179 | `len(self)`: at most the number of cells, and 0 exactly when every cell is empty |
| Formation.CountClear | spaceinvaders.py:181-182 | emptying an occupied cell lowers the count by exactly one |
| Formation.CountFull | spaceinvaders.py:175-179 | a grid with every cell occupied counts all its cells |
| Formation.Range | spaceinvaders.py:131 | `list(range(lo, hi))` has hi - lo elements (none when lo >= hi), element i being lo + i |
| Formation.RangeFacts | spaceinvaders.py:131 | `list(range(lo, hi))` is strictly increasing and holds exactly lo..hi-1 |
| Formation.RemoveValueLength | spaceinvaders.py:185 | `list.remove(v)` is one shorter when v is in the list, and leaves the list as it is otherwise |
| Formation.RemoveValueFacts | spaceinvaders.py:183-185 | `list.remove` on an increasing list keeps it increasing and removes exactly that value |
| Formation.AliveColumnsNonEmpty | spaceinvaders.py:169-173 | the group holds an enemy exactly when `aliveColumns` is non-empty, so `random_bottom` can always draw a column |
| Formation.WalkDown | spaceinvaders.py:187-191 | the right-edge walk stops at an alive column or at 0, and every column it passed is dead |
| Formation.WalkUp | spaceinvaders.py:193-197 | the left-edge walk stops at an alive column or at the column count, and every column it passed is dead |
| Formation.LowestIn | spaceinvaders.py:169-173 | the scan of one column from the bottom row up finds the enemy with the greatest row index, or None exactly when the column is empty |
| Formation.NextMoveTime | spaceinvaders.py:175-179 | 200 ms when one enemy remains, 400 ms when 0 or 2-10 remain, unchanged otherwise; never above 600 ms |
| Formation.StartX | spaceinvaders.py:503-518 | the left five columns start left of the middle line (x < 400) and the right five at or right of it |
| Formation.ClearCell | spaceinvaders.py:181-185 | emptying an occupied cell keeps every enemy in its own cell, can only kill the enemy's own column, and lowers the count by one |
| Formation.EdgesAfterKill | spaceinvaders.py:187-197 | after a kill, walking the right edge down (enemy in the right edge column), or else the left edge up (enemy in the left edge column), again bounds the alive columns by alive edges |
| Formation.KillKeepsShape | spaceinvaders.py:181-197 | `kill` keeps the group invariant: cells in place, `aliveColumns` exactly the alive columns in order, edges bounding them; the count drops by one |
| Formation.KillLeftWalkBounded | spaceinvaders.py:193-197 | the left-edge walk never runs past the last column, since the right edge column is still alive |
| Formation.WalkRightEdge | spaceinvaders.py:187-191 | the right-edge loop computes `WalkDown` |
| Formation.WalkLeftEdge | spaceinvaders.py:193-197 | the left-edge loop computes `WalkUp` |
| Formation.KillCell | spaceinvaders.py:181-197 | `kill` on the group's values: the cell empties, the count drops by one, only the right edge walks (enemy in the right edge column) or else only the left edge walks, and the group invariant holds afterwards |
| Formation.EnemiesGroup.constructor | spaceinvaders.py:114-133 | an empty grid, all ten columns listed as alive, edges 0 and 9, 600 ms, direction 1, 15 moves, `bottom` at the formation's lowest starting extent |
| Formation.EnemiesGroup.Add | spaceinvaders.py:154-157 | `add_internal` writes the enemy into the cell of its row and column and changes no other cell |
| Formation.EnemiesGroup.Kill | spaceinvaders.py:181-197 | the cell becomes empty, the count drops by one, only the right edge walks (enemy in the right edge column) or else only the left edge walks, and the group invariant holds |
| Formation.EnemiesGroup.UpdateSpeed | spaceinvaders.py:175-179 | `moveTime` becomes `NextMoveTime` of the number of enemies left |
| Formation.EnemiesGroup.RemoveInternal | spaceinvaders.py:159-163 | removing an enemy empties its cell, drops the count by one, keeps the invariant, walks the edges as `Kill` does and applies the speed-up rule to the new count |
| Formation.EnemiesGroup.RandomBottom | spaceinvaders.py:169-173 | for a column drawn from `aliveColumns` the result is never None: it is the enemy of that column with the greatest row index |
| Formation.EnemiesGroup.Update | spaceinvaders.py:135-152 | nothing changes unless more than `moveTime` has passed; then `timer` advances by exactly `moveTime`, and either every enemy shifts 10 x direction and `moveNumber` increments, or (after 15 moves) the direction flips, `moveNumber` resets, every enemy descends 35 and `bottom` becomes the lowest extent |
| Formation.Descend | spaceinvaders.py:137-146 | the descent loop moves every enemy 35 down, toggles its frame, and leaves `bottom` as `MaxExtent` of the moved grid |
| Formation.Shift | spaceinvaders.py:147-151 | the sideways loop moves every enemy by dx and toggles its frame |
| Formation.MoveCell | spaceinvaders.py:142-149 | a lockstep move keeps a cell empty or occupied, keeps the enemy's row and column, and displaces it by exactly (dx, dy) |
| Formation.MaxExtentIsLowest | spaceinvaders.py:140-145 | the recomputed `bottom` is at least 0, no enemy extends below it, and unless it is 0 some enemy reaches exactly to it |
| Formation.MaxExtentOfEmpty | spaceinvaders.py:140-145 | a descent over an empty grid leaves `bottom` at 0 |
| Formation.MoveKeepsShape | spaceinvaders.py:135-152 | a lockstep move keeps the group invariant with the same column list and edges |
| Formation.MovePreservesShape | spaceinvaders.py:135-152 | a lockstep move keeps every enemy in its cell and no column changes between dead and alive |
| Formation.FillStep | spaceinvaders.py:503-518 | adding the next enemy of `make_enemies` extends the filled prefix of the grid by exactly that cell |
| Formation.LayoutIsFull | spaceinvaders.py:503-518 | a grid is the layout of `make_enemies` if and only if every cell holds the enemy of its row and column at x `StartX(column)`, y enemyPosition + 45 x row |
| Formation.MakeEnemies | spaceinvaders.py:503-518 | a full formation: the grid is that layout, all 50 cells count, the invariant holds, and the group's fields start as the constructor sets them |
| Scoring.RowPoints | spaceinvaders.py:529-538 | rows 0-4 are worth 30/20/20/10/10, row 5 the drawn mystery value; always positive |
| Scoring.CreditsPlayer | spaceinvaders.py:539-544 | a formation kill credits the player exactly when its column is below 5 |
| Scoring.RowPointsDecrease | spaceinvaders.py:530-535 | a row nearer the top of the formation (smaller index) is never worth less than one below it, and two rows are worth the same exactly when they share a band |
| Scoring.MysteryCreditsLeftHalf | spaceinvaders.py:539-541 | with `x // 80`, the mystery ship credits the player exactly when its x is below 400, also for negative x |
| OpponentAI.LeftWall | spaceinvaders.py:339-341 | 10 when cooperating, 410 when competing |
| OpponentAI.RightEnemy | spaceinvaders.py:332-335 | the greatest enemy x, or 0: at least 0, no enemy x above it, and it is 0 or some enemy's x |
| OpponentAI.PrefixStep | spaceinvaders.py:346-355 | the three lane flags of one scanned bullet: a low bullet 2-29 px left of the ship (`BlocksLeft`) clears moveLeft, one from 1 px left to 50 px right (`Threatens`) sets hit, one 51-79 px right (`BlocksRight`) clears moveRight; over the scanned prefix these are `LeftFree`, `UnderThreat` and `RightFree` |
| OpponentAI.Bounce | spaceinvaders.py:356-359 | the direction becomes 1 left of x = 10, -1 right of 740, and is otherwise kept; it stays +-1 |
| OpponentAI.Steer | spaceinvaders.py:361-371 | x changes by -speed, 0 or +speed; under a hit threat with both lanes free it moves by direction x speed; a blocked lane is never entered; with no threat it never moves left at or left of the left wall, and it does move left when right of the rightmost enemy, past the wall, with the left lane free; with one lane free under threat it takes it |
| OpponentAI.ChaseTowardsRightEnemy | spaceinvaders.py:367-371 | with no threat the AI moves left exactly when it is right of the rightmost enemy, past the left wall, with the left lane free; otherwise it moves right exactly when it is more than 10 px left of that enemy with the right lane free |
| OpponentAI.UpdateAI | spaceinvaders.py:331-371 | only the ship's x and direction change: the direction by `Bounce`, x by `Steer` on the rightmost enemy and the three lane flags of the bullets at y >= 300; x moves by -speed, 0 or +speed; with no threat the ship never moves left from at or left of the left wall, which is x 410 when competing |
| Game.Remaining | spaceinvaders.py:403-411 | at most three tokens, and none exactly when all are dead |
| Game.LoseLife | spaceinvaders.py:583-603 | a hit kills one token when any is left, never revives one, keeps tokens ordered, and takes token 1 only when 2 and 3 are gone |
| Game.ThreeHitsEmptyASide | spaceinvaders.py:583-603 | three hits take an ordered side to no tokens; from full, token 1 survives two hits |
| Game.SpaceInvaders.constructor | spaceinvaders.py:376-411 | the game starts on the menu with all six tokens and the default enemy position |
| Game.SpaceInvaders.NewRoundObjects | spaceinvaders.py:413-422 | fresh objects in `RoundStart`: ships at home (x 200 human, x 600 AI) heading left, the mystery ship at x -80 moving right with its cue armed and its timer at now, and the formation laid out at `enemyPosition` with the invariant, 600 ms, direction 1, no moves done, its timer at now and `bottom` at enemyPosition + 215 |
| Game.SpaceInvaders.ClearRoundState | spaceinvaders.py:417-434 | both ships alive, both bullet pools empty, timers at now, the given scores, no pending respawn |
| Game.SpaceInvaders.Reset | spaceinvaders.py:413-434 | `reset`: fresh round objects in `RoundStart` and the state of `ClearRoundState`; tokens, flags and `enemyPosition` untouched |
| Game.SpaceInvaders.StartFromMenu | spaceinvaders.py:692-705 | the menu's key release restores all six tokens, resets with scores 0 (fresh objects in `RoundStart`, empty pools, timers at now) and starts play; `gameOver` and `enemyPosition` untouched |
| Game.SpaceInvaders.CalculateScore | spaceinvaders.py:529-545 | returns the row's points and adds them to exactly one total, so the sum of the two rises by exactly the return value |
| Game.SpaceInvaders.EnemyHit | spaceinvaders.py:564-569 | the hit enemy's cell empties with the group invariant kept, the edges walk as in `kill`, `moveTime` follows the speed-up rule for the new count, and the kill is scored to the side of its column |
| Game.SpaceInvaders.MysteryHit | spaceinvaders.py:571-579 | the mystery ship is scored to the player exactly when its x is below 400, and replaced by a new waiting one at (-80, 45), moving right with its entry cue armed |
| Game.SpaceInvaders.ShipHit | spaceinvaders.py:581-610 | the hit side loses its highest token; `gameOver` is set (and `startGame` cleared) only when token 1 goes while the other side's token 1 is gone; a respawn is flagged only while token 1 survives; `shipTimer` is now; the hit side's ship must be in play, as only live ships are tested for collisions |
| Game.SpaceInvaders.CrushOverlapped | spaceinvaders.py:612-613 | the enemies overlapping a ship leave the grid, and no other cell changes; the count drops by their number, and `moveTime` follows the speed-up rule for the new count (unchanged when nothing is crushed) |
| Game.SpaceInvaders.GroundContact | spaceinvaders.py:612-638 | below a bottom of 540 nothing happens; otherwise an overlapped side loses all tokens, from 600 the human side is eliminated while the left edge is below column 5 and the AI side while the right edge is 5 or more, and the game ends once both ships are gone; an overlapped ship must be in play, as only live ships are tested |
| Game.SpaceInvaders.CreateNewShip | spaceinvaders.py:645-656 | a flagged ship is recreated only after more than 900 ms, as a new ship of its own kind at home heading left, and its flag cleared; otherwise nothing changes |
| Game.SpaceInvaders.CheckInput | spaceinvaders.py:477-501 | the AI fires only into an empty pool while its token 1 lives, the human only while the pool holds fewer than 2 and its token 1 lives; a pool of at most 2 stays at most 2, and old bullets are kept |
| Game.SpaceInvaders.MakeEnemiesShoot | spaceinvaders.py:520-527 | more than 700 ms after the last shot and with an enemy alive, the lowest enemy of the drawn column fires one bullet down and the time is recorded; otherwise nothing changes |
| Game.SpaceInvaders.MoveBullets | spaceinvaders.py:728 | the sprite update steps both bullet pools by `Advance`: neither grows, and each keeps exactly the on-screen steps of its old bullets |
| Game.SpaceInvaders.RoundWonWhenNoColumns | spaceinvaders.py:705 | with a valid formation the round is won exactly when `aliveColumns` is empty and no explosion is running |
| Game.SpaceInvaders.ShowGameOver | spaceinvaders.py:658-677 | the enemy position is reset to 65, and the menu returns exactly when more than 10 s have passed since `timer` |

## Left out

- Rendering, fonts, images and the middle line (`blit`, `Text`, `transform.scale`, `display`, `create_main_menu`, drawing in `create_game_over`): pygame output.
- Audio (`mixer.Sound`, `create_audio`, `play_main_music` and its note counter, the `play`/`fadeout` calls in `Mystery.update`): side effects only.
- Event polling, `key.get_pressed`, `sys.exit` and `sys.argv`: the held keys, the space presses and the cooperate flag are inputs.
- Pixel-rectangle overlap (`sprite.groupcollide`): it depends on image sizes. Its outcomes (the hit enemy, the hit ship, the overlapping ships and enemies) are inputs.
- Removal of the colliding bullets, and bullet-against-bullet collisions: these are pixel overlaps too.
- `Blocker`/`make_blockers`: dead code, every use is commented out.
- The main loop as a frame driver, and `gameTimer`, which is set but never read. The loop's flag transitions are modelled by `StartFromMenu`, `ShipHit`, `GroundContact` and `ShowGameOver`, and the won-round test by `RoundWon`. The sprite update of the ships, the mystery ship and the enemies is modelled by their own `Update` methods, and its bullet step by `MoveBullets`.
- `leftEnemy` in `updateAI`: computed but never used.
- The explosion objects themselves: only their lifetime phases are modelled.
- Formation.EnemiesGroup: the grid is a sequence field that each operation reassigns, not a list of lists updated in place.
- Formation.EnemiesGroup.Update: the loops run in grid order rather than in sprite-group order. This is equivalent, because every enemy is moved independently and `bottom` is a maximum.
- Game.SpaceInvaders.constructor: it also creates the first round's objects, which `__init__` leaves to the menu's `reset`. They are replaced before use.
- Game.SpaceInvaders.CrushOverlapped: the crushed enemies are given as a list of distinct occupied cells, not computed from pixels.
- Game.SpaceInvaders.CrushOverlapped: the edge columns afterwards are stated only through the group invariant, which fixes them while an enemy remains. After the last enemy is crushed they are whatever the chain of per-kill walks leaves, and the contract does not state that chain.

=== FILE: ai.dfy ===
/**
 * The controller of the second (AI) ship, `updateAI`: one greedy decision per
 * frame from the enemies' x positions and the enemy bullets below y = 300.
 */
module OpponentAI {
  import opened Entities

  /** Only bullets at y >= 300 are looked at. */
  const DANGER_Y := 300

  /**
   * Without a threat, the AI does not move left at or left of this x: 410
   * keeps it on its own half when competing, 10 lets it use the whole screen
   * when cooperating.
   */
  function LeftWall(cooperate: bool): (w: int)
    ensures cooperate ==> w == 10
    ensures !cooperate ==> w == 410
  {
    if cooperate then 10 else 410
  }

  /** `rightEnemy`: the greatest enemy x, where the scan starts from 0. */
  function RightEnemy(xs: seq<int>): (r: int)
    ensures r >= 0
    ensures forall i :: 0 <= i < |xs| ==> xs[i] <= r
    ensures r == 0 || r in xs
  {
    if xs == [] then 0
    else
      var m := RightEnemy(xs[..|xs| - 1]);
      if xs[|xs| - 1] > m then xs[|xs| - 1] else m
  }

  /** A bullet low enough to count, in the band just left of the ship (-30 < diff < -1): blocks a left move. */
  predicate BlocksLeft(b: Bullet, x: int)
  {
    b.y >= DANGER_Y && -30 < b.x - x < -1
  }

  /** A low bullet in the ship's own column band (-1 <= diff <= 50): a hit threat. */
  predicate Threatens(b: Bullet, x: int)
  {
    b.y >= DANGER_Y && -1 <= b.x - x <= 50
  }

  /** A low bullet just right of the ship (50 < diff < 80): blocks a right move. */
  predicate BlocksRight(b: Bullet, x: int)
  {
    b.y >= DANGER_Y && 50 < b.x - x < 80
  }

  ghost predicate LeftFree(bs: seq<Bullet>, x: int)
  {
    forall b :: b in bs ==> !BlocksLeft(b, x)
  }

  ghost predicate RightFree(bs: seq<Bullet>, x: int)
  {
    forall b :: b in bs ==> !BlocksRight(b, x)
  }

  ghost predicate UnderThreat(bs: seq<Bullet>, x: int)
  {
    exists b :: b in bs && Threatens(b, x)
  }

  /** How the three lane flags extend by one more bullet. */
  lemma PrefixStep(bs: seq<Bullet>, b: Bullet, x: int)
    ensures LeftFree(bs + [b], x) <==> LeftFree(bs, x) && !BlocksLeft(b, x)
    ensures RightFree(bs + [b], x) <==> RightFree(bs, x) && !BlocksRight(b, x)
    ensures UnderThreat(bs + [b], x) <==> UnderThreat(bs, x) || Threatens(b, x)
  {
    assert b in bs + [b];
    assert forall c :: c in bs ==> c in bs + [b];
  }

  /** The direction update: bounce off x < 10 and x > 740. */
  function Bounce(x: int, direction: int): (d: int)
    ensures (direction == 1 || direction == -1) ==> (d == 1 || d == -1)
    ensures x < 10 ==> d == 1
    ensures x > 740 ==> d == -1
    ensures 10 <= x <= 740 ==> d == direction
  {
    if x < 10 then 1 else if x > 740 then -1 else direction
  }

  /**
   * The decision of `updateAI` once the flags are known: dodge a threatening
   * bullet (drifting along `direction` if both lanes are free), otherwise
   * chase the rightmost enemy without crossing the left wall.
   */
  function Steer(x: int, d: int, speed: int, rightEnemy: int,
                 moveLeft: bool, moveRight: bool, hit: bool, leftWall: int): (nx: int)
    requires d == 1 || d == -1
    requires speed >= 0
    ensures nx == x - speed || nx == x || nx == x + speed
    ensures moveLeft && moveRight && hit ==> nx == x + d * speed
    ensures !moveLeft ==> nx >= x
    ensures !moveRight ==> nx <= x
    ensures !hit && x <= leftWall ==> nx >= x
    ensures hit && moveLeft && !moveRight && x > 10 ==> nx == x - speed
    ensures hit && !moveLeft && moveRight && x < 740 ==> nx == x + speed
    ensures !hit && moveLeft && x > rightEnemy && x > leftWall ==> nx == x - speed
    ensures !hit && moveRight && x < rightEnemy - 10 && !(x > rightEnemy && moveLeft && x > leftWall) ==> nx == x + speed
  {
    if moveLeft && moveRight && hit then x + d * speed
    else if x > 10 && moveLeft && hit then x - speed
    else if x < 740 && moveRight && hit then x + speed
    else if x > rightEnemy && moveLeft && x > leftWall then x - speed
    else if x < rightEnemy - 10 && moveRight then x + speed
    else x
  }

  /**
   * Without a threat the AI chases the rightmost enemy: it moves left exactly
   * when it is right of that enemy, past the left wall, with the left lane
   * free; otherwise it moves right exactly when it is more than 10 px left of
   * the enemy with the right lane free.
   */
  lemma ChaseTowardsRightEnemy(x: int, d: int, speed: int, rightEnemy: int,
                               moveLeft: bool, moveRight: bool, leftWall: int)
    requires d == 1 || d == -1
    requires speed >= 0
    ensures var nx := Steer(x, d, speed, rightEnemy, moveLeft, moveRight, false, leftWall);
      && (nx < x <==> speed > 0 && moveLeft && x > rightEnemy && x > leftWall)
      && (nx > x <==> speed > 0 && !(moveLeft && x > rightEnemy && x > leftWall) && moveRight && x < rightEnemy - 10)
  {
  }

  /**
   * `updateAI`: scan the enemies for the rightmost x, scan the enemy bullets
   * for the three lane flags, bounce the direction, then make one move. Only
   * the ship's x and direction change.
   */
  method UpdateAI(ai: Ship, enemyXs: seq<int>, enemyBullets: seq<Bullet>, cooperate: bool)
    requires ai.Valid()
    modifies ai`x, ai`direction
    ensures ai.Valid()
    ensures ai.direction == Bounce(old(ai.x), old(ai.direction))
    ensures ai.x == Steer(old(ai.x), ai.direction, ai.speed, RightEnemy(enemyXs),
                          LeftFree(enemyBullets, old(ai.x)), RightFree(enemyBullets, old(ai.x)),
                          UnderThreat(enemyBullets, old(ai.x)), LeftWall(cooperate))
    ensures ai.x - old(ai.x) in {-ai.speed, 0, ai.speed}
    ensures !UnderThreat(enemyBullets, old(ai.x)) && old(ai.x) <= LeftWall(cooperate) ==> ai.x >= old(ai.x)
    ensures !cooperate && !UnderThreat(enemyBullets, old(ai.x)) && old(ai.x) <= 410 ==> ai.x >= old(ai.x)
  {
    var x := ai.x;
    var rightEnemy := 0;
    for i := 0 to |enemyXs|
      modifies {}
      invariant rightEnemy == RightEnemy(enemyXs[..i])
    {
      if enemyXs[i] > rightEnemy {
        rightEnemy := enemyXs[i];
      }
      assert enemyXs[..i + 1][..i] == enemyXs[..i];
    }
    assert enemyXs[..|enemyXs|] == enemyXs;

    var leftWall := 10;
    if !cooperate {
      leftWall := 410;
    }

    var moveLeft, moveRight, hit := true, true, false;
    for i := 0 to |enemyBullets|
      modifies {}
      invariant moveLeft == LeftFree(enemyBullets[..i], x)
      invariant moveRight == RightFree(enemyBullets[..i], x)
      invariant hit == UnderThreat(enemyBullets[..i], x)
    {
      var b := enemyBullets[i];
      assert enemyBullets[..i + 1] == enemyBullets[..i] + [b];
      if b.y >= DANGER_Y {
        var diff := b.x - x;
        if -30 < diff < -1 {
          moveLeft := false;
        }
        if -1 <= diff <= 50 {
          hit := true;
        }
        if 50 < diff < 80 {
          moveRight := false;
        }
      }
      PrefixStep(enemyBullets[..i], b, x);
    }
    assert enemyBullets[..|enemyBullets|] == enemyBullets;

    if ai.x < 10 {
      ai.direction := 1;
    } else if ai.x > 740 {
      ai.direction := -1;
    }

    if moveLeft && moveRight && hit {
      ai.x := ai.x + ai.direction * ai.speed;
    } else if ai.x > 10 && moveLeft && hit {
      ai.x := ai.x - ai.speed;
    } else if ai.x < 740 && moveRight && hit {
      ai.x := ai.x + ai.speed;
    } else if ai.x > rightEnemy && moveLeft && ai.x > leftWall {
      ai.x := ai.x - ai.speed;
    } else if ai.x < rightEnemy - 10 && moveRight {
      ai.x := ai.x + ai.speed;
    }
  }
}

=== FILE: entities.dfy ===
/**
 * Per-entity steps of the game: the two ships, bullets, the enemy animation
 * frame, the mystery ship and the three explosion kinds.
 */
module Entities {
  import opened Wrappers

  const SCREEN_HEIGHT := 600
  const SHIP_SPEED := 5
  const SHIP_Y := 540

  /** The keys the simulation reads from the held-key snapshot. */
  datatype Key = LeftArrow | RightArrow | KeyA | KeyD

  /** Home x of a (re)created ship: 200 for the human, 600 for the AI. */
  function HomeX(human: bool): (x: int)
    ensures human <==> x < 400
  {
    if human then 200 else 600
  }

  /**
   * One key-driven move: left first (only while x > 10), then right, checked
   * against the already updated x (only while x < 740).
   */
  function ShipStep(x: int, leftHeld: bool, rightHeld: bool, speed: int): (r: int)
    requires 0 < speed
    ensures r == x - speed || r == x || r == x + speed
    ensures !leftHeld ==> r >= x
    ensures !rightHeld ==> r <= x
    ensures speed == SHIP_SPEED && 5 <= x <= 745 ==> 5 <= r <= 745
    ensures leftHeld && !rightHeld ==> r == (if x > 10 then x - speed else x)
    ensures rightHeld && !leftHeld ==> r == (if x < 740 then x + speed else x)
  {
    var afterLeft := if leftHeld && x > 10 then x - speed else x;
    if rightHeld && afterLeft < 740 then afterLeft + speed else afterLeft
  }

  class Ship {
    const human: bool
    var x: int
    const y: int
    /** Drift direction used only by the AI controller. */
    var direction: int
    const speed: int

    ghost predicate Valid()
      reads this
    {
      speed == SHIP_SPEED && y == SHIP_Y && (direction == 1 || direction == -1)
    }

    constructor (human: bool)
      ensures Valid()
      ensures this.human == human && x == HomeX(human) && direction == -1
    {
      this.human := human;
      direction := -1;
      x := HomeX(human);
      y := SHIP_Y;
      speed := SHIP_SPEED;
    }

    /** The human steers with the arrow keys, the AI ship with A and D. */
    method Update(keys: set<Key>)
      requires Valid()
      modifies this`x
      ensures Valid()
      ensures x == ShipStep(old(x), (if human then LeftArrow else KeyA) in keys,
                            (if human then RightArrow else KeyD) in keys, speed)
      ensures 5 <= old(x) <= 745 ==> 5 <= x <= 745
    {
      var left, right := LeftArrow, RightArrow;
      if !human {
        left, right := KeyA, KeyD;
      }
      if left in keys && x > 10 {
        x := x - speed;
      }
      if right in keys && x < 740 {
        x := x + speed;
      }
    }
  }

  /** A bullet: player lasers move up (direction -1, speed 15), enemy lasers down (direction 1, speed 5). */
  datatype Bullet = Bullet(x: int, y: int, direction: int, speed: int)

  /** One bullet step: move vertically, and disappear once y < 15 or y > 600. */
  function BulletUpdate(b: Bullet): (r: Option<Bullet>)
    ensures r.Some? ==> 15 <= r.value.y <= SCREEN_HEIGHT
    ensures r.Some? ==> r.value.x == b.x && r.value.direction == b.direction && r.value.speed == b.speed
    ensures r.Some? ==> r.value.y - b.y == b.speed * b.direction
    ensures r.None? <==> !(15 <= b.y + b.speed * b.direction <= SCREEN_HEIGHT)
  {
    var y := b.y + b.speed * b.direction;
    if y < 15 || y > SCREEN_HEIGHT then None else Some(b.(y := y))
  }

  /** The update of a whole bullet pool: every bullet steps, those that leave the playfield are dropped. */
  function Advance(pool: seq<Bullet>): (r: seq<Bullet>)
    ensures |r| <= |pool|
    ensures forall i :: 0 <= i < |r| ==> 15 <= r[i].y <= SCREEN_HEIGHT
  {
    if pool == [] then []
    else
      var rest := Advance(pool[1..]);
      match BulletUpdate(pool[0])
      case None => rest
      case Some(b) => [b] + rest
  }

  /**
   * The pool update keeps exactly the bullets that are still on screen after
   * their step, moved: a bullet is in the new pool iff some bullet of the old
   * pool stepped to it.
   */
  lemma {:induction false} AdvanceKeepsOnScreen(pool: seq<Bullet>)
    ensures forall b :: b in Advance(pool) <==> exists i :: 0 <= i < |pool| && BulletUpdate(pool[i]) == Some(b)
  {
    if pool != [] {
      AdvanceKeepsOnScreen(pool[1..]);
      forall b
        ensures b in Advance(pool) <==> exists i :: 0 <= i < |pool| && BulletUpdate(pool[i]) == Some(b)
      {
        if exists i :: 0 <= i < |pool| && BulletUpdate(pool[i]) == Some(b) {
          var i :| 0 <= i < |pool| && BulletUpdate(pool[i]) == Some(b);
          if i > 0 {
            assert pool[1..][i - 1] == pool[i];
          }
        }
        if b in Advance(pool[1..]) {
          var j :| 0 <= j < |pool[1..]| && BulletUpdate(pool[1..][j]) == Some(b);
          assert pool[j + 1] == pool[1..][j];
        }
      }
    }
  }

  /**
   * The pool update works bullet by bullet: updating a pool split in two is
   * updating each part, and a single bullet is kept (moved) or dropped. So
   * the new pool holds one bullet per surviving old bullet, in order.
   */
  lemma {:induction false} AdvanceAppend(p: seq<Bullet>, q: seq<Bullet>)
    ensures Advance(p + q) == Advance(p) + Advance(q)
  {
    if p != [] {
      assert (p + q)[0] == p[0];
      assert (p + q)[1..] == p[1..] + q;
      AdvanceAppend(p[1..], q);
    } else {
      assert p + q == q;
    }
  }

  lemma AdvanceOne(b: Bullet)
    ensures Advance([b]) == (match BulletUpdate(b) case Some(c) => [c] case None => [])
  {
    assert [b][1..] == [];
  }

  /** `Enemy.toggle_image` on a two-image list: the frame index cycles 0, 1, 0, ... */
  function ToggleIndex(index: int): (r: int)
    ensures r < 2
    ensures 0 <= index < 2 ==> r == 1 - index
  {
    if index + 1 >= 2 then 0 else index + 1
  }

  /** The mystery (bonus) ship: drifts across the top of the screen every 25 seconds. */
  class Mystery {
    var x: int
    const y: int
    const row: int
    const moveTime: int
    var direction: int
    var timer: int
    /** Whether the entry cue may still be triggered on this pass. */
    var playSound: bool

    ghost predicate Valid()
      reads this
    {
      row == 5 && moveTime == 25000 && -101 <= x <= 841 && (direction == 1 || direction == -1)
    }

    constructor (now: int)
      ensures Valid()
      ensures x == -80 && y == 45 && direction == 1 && timer == now && playSound
    {
      x, y := -80, 45;
      row := 5;
      moveTime := 25000;
      direction := 1;
      timer := now;
      playSound := true;
    }

    method Update(currentTime: int)
      requires Valid()
      modifies this`x, this`direction, this`timer, this`playSound
      ensures Valid()
      ensures var moving := currentTime - old(timer) > moveTime;
        && x == (if !moving then old(x)
                 else if old(direction) == 1 && old(x) < 840 then old(x) + 2
                 else if old(direction) == -1 && old(x) > -100 then old(x) - 2
                 else old(x))
        && direction == (if x > 830 then -1 else if x < -90 then 1 else old(direction))
        && timer == (if moving && (x > 830 || x < -90) then currentTime else old(timer))
        && playSound == (if x > 830 || x < -90 then true
                         else if moving && (old(x) < 0 || old(x) > 800) then false
                         else old(playSound))
    {
      var resetTimer := false;
      var passed := currentTime - timer;
      if passed > moveTime {
        if (x < 0 || x > 800) && playSound {
          playSound := false;
        }
        if x < 840 && direction == 1 {
          x := x + 2;
        }
        if x > -100 && direction == -1 {
          x := x - 2;
        }
      }
      if x > 830 {
        playSound := true;
        direction := -1;
        resetTimer := true;
      }
      if x < -90 {
        playSound := true;
        direction := 1;
        resetTimer := true;
      }
      if passed > moveTime && resetTimer {
        timer := currentTime;
      }
    }
  }

  /** What an explosion does on a frame, given the milliseconds since it appeared. */
  datatype Phase = Shown | ShownLarge | Hidden | Gone

  /** Enemy explosion: small image up to 100 ms, large up to 200 ms, invisible, removed after 400 ms. */
  function EnemyExplosionPhase(passed: int): (p: Phase)
    ensures p == Gone <==> passed > 400
    ensures p == Shown <==> passed <= 100
    ensures p == ShownLarge <==> 100 < passed <= 200
  {
    if passed <= 100 then Shown
    else if passed <= 200 then ShownLarge
    else if 400 < passed then Gone
    else Hidden
  }

  /** Mystery explosion: the score text blinks (shown, hidden, shown) and is removed after 600 ms. */
  function MysteryExplosionPhase(passed: int): (p: Phase)
    ensures p == Gone <==> passed > 600
    ensures p == Shown <==> passed <= 200 || 400 < passed <= 600
    ensures p != ShownLarge
  {
    if passed <= 200 || 400 < passed <= 600 then Shown
    else if 600 < passed then Gone
    else Hidden
  }

  /** Ship explosion: the ship image is shown between 300 and 600 ms and removed after 900 ms. */
  function ShipExplosionPhase(passed: int): (p: Phase)
    ensures p == Gone <==> passed > 900
    ensures p == Shown <==> 300 < passed <= 600
    ensures p != ShownLarge
  {
    if 300 < passed <= 600 then Shown
    else if 900 < passed then Gone
    else Hidden
  }
}

=== FILE: formation.dfy ===
/**
 * The enemy formation: a 5 x 10 grid of optional enemies, moved in lockstep on
 * a timer, with incremental bookkeeping of the columns that still hold an enemy.
 *
 * The grid (a list of rows in the source) is one sequence of 50 cells in row-major
 * order; cell `row * 10 + column` holds the enemy of that row and column, and
 * `None` marks a destroyed enemy.
 */
module Formation {
  import opened Wrappers
  import opened Entities

  const ROWS := 5
  const COLUMNS := 10
  const CELLS := 50
  /** Number of sideways moves before the formation turns and descends. */
  const MOVES := 15
  const ENEMY_MOVE_DOWN := 35
  const ENEMY_DEFAULT_POSITION := 65
  /** Height of an enemy image: the extent below an enemy's y that counts for `bottom`. */
  const ENEMY_HEIGHT := 35

  datatype Enemy = Enemy(row: int, column: int, x: int, y: int, index: int)

  type Grid = seq<Option<Enemy>>

  function At(s: Grid, row: int, column: int): Option<Enemy>
    requires |s| == CELLS && 0 <= row < ROWS && 0 <= column < COLUMNS
  {
    s[row * 10 + column]
  }

  /** Every enemy sits in the cell of its own row and column. */
  ghost predicate GridOk(s: Grid)
    requires |s| == CELLS
  {
    forall r, c :: 0 <= r < ROWS && 0 <= c < COLUMNS && At(s, r, c).Some? ==>
      At(s, r, c).value.row == r && At(s, r, c).value.column == c
  }

  /** `is_column_dead`: no row holds an enemy in this column. */
  predicate ColumnDead(s: Grid, column: int)
    requires |s| == CELLS && 0 <= column < COLUMNS
  {
    && At(s, 0, column).None? && At(s, 1, column).None? && At(s, 2, column).None?
    && At(s, 3, column).None? && At(s, 4, column).None?
  }

  /** `is_column_dead` is the "no row holds an enemy" test, written out over the five rows. */
  lemma ColumnDeadMeansEmpty(s: Grid, column: int)
    requires |s| == CELLS && 0 <= column < COLUMNS
    ensures ColumnDead(s, column) <==> forall r :: 0 <= r < ROWS ==> At(s, r, column).None?
  {
  }

  /** `len(self)`: the number of living enemies. */
  function Count(s: seq<Option<Enemy>>): (n: nat)
    ensures n <= |s|
    ensures n == 0 <==> forall i :: 0 <= i < |s| ==> s[i].None?
  {
    if s == [] then 0
    else Count(s[..|s| - 1]) + (if s[|s| - 1].Some? then 1 else 0)
  }

  /**
   * What `_aliveColumns` must hold for a grid: exactly the columns that still
   * hold an enemy, in increasing order (so each at most once).
   */
  ghost predicate ListsAliveColumns(s: Grid, xs: seq<int>)
    requires |s| == CELLS
  {
    && (forall i, j :: 0 <= i < j < |xs| ==> xs[i] < xs[j])
    && (forall c :: c in xs <==> 0 <= c < COLUMNS && !ColumnDead(s, c))
  }

  /** `list(range(lo, hi))`. */
  function Range(lo: int, hi: int): (r: seq<int>)
    ensures |r| == if lo < hi then hi - lo else 0
    ensures forall i :: 0 <= i < |r| ==> r[i] == lo + i
    decreases hi - lo
  {
    if lo >= hi then [] else [lo] + Range(lo + 1, hi)
  }

  /** Python's `list.remove`: drop the first occurrence of `v`, if any. */
  function RemoveValue(xs: seq<int>, v: int): seq<int>
  {
    if xs == [] then []
    else if xs[0] == v then xs[1..]
    else [xs[0]] + RemoveValue(xs[1..], v)
  }

  /**
   * The edge invariant: while some column is alive, the left and right edges
   * are alive columns, in order, and every alive column lies between them.
   */
  ghost predicate EdgesOk(s: Grid, left: int, right: int)
    requires |s| == CELLS
  {
    (exists c :: 0 <= c < COLUMNS && !ColumnDead(s, c)) ==>
      && 0 <= left <= right < COLUMNS
      && !ColumnDead(s, left) && !ColumnDead(s, right)
      && forall c :: 0 <= c < COLUMNS && !ColumnDead(s, c) ==> left <= c <= right
  }

  /**
   * The walk of `rightAliveColumn` in `kill`: step down while the current
   * column is dead and the edge is above 0.
   */
  function WalkDown(s: Grid, c: int): (r: int)
    requires |s| == CELLS && 0 <= c < COLUMNS
    ensures 0 <= r <= c
    ensures forall k :: r < k <= c ==> ColumnDead(s, k)
    ensures r == 0 || !ColumnDead(s, r)
    decreases c
  {
    if c > 0 && ColumnDead(s, c) then WalkDown(s, c - 1) else c
  }

  /**
   * The walk of `leftAliveColumn` in `kill`: step up while the current column
   * is dead and the edge is below the column count.
   */
  function WalkUp(s: Grid, c: int): (r: int)
    requires |s| == CELLS && 0 <= c <= COLUMNS
    ensures c <= r <= COLUMNS
    ensures forall k :: c <= k < r ==> ColumnDead(s, k)
    ensures r < COLUMNS ==> !ColumnDead(s, r)
    decreases COLUMNS - c
  {
    if c < COLUMNS && ColumnDead(s, c) then WalkUp(s, c + 1) else c
  }

  /**
   * The scan of `random_bottom` over rows n-1, n-2, ..., 0 of one column: the
   * first enemy met, that is the one with the greatest row index below n.
   */
  function LowestIn(s: Grid, column: int, n: int): (e: Option<Enemy>)
    requires |s| == CELLS && GridOk(s) && 0 <= column < COLUMNS && 0 <= n <= ROWS
    ensures e.None? <==> forall r :: 0 <= r < n ==> At(s, r, column).None?
    ensures e.Some? ==>
      && 0 <= e.value.row < n && e.value.column == column
      && At(s, e.value.row, column) == e
      && forall r :: e.value.row < r < n ==> At(s, r, column).None?
    decreases n
  {
    if n == 0 then None
    else if At(s, n - 1, column).Some? then At(s, n - 1, column)
    else LowestIn(s, column, n - 1)
  }

  /** The new move interval after a removal leaves n enemies (`update_speed`). */
  function NextMoveTime(n: nat, moveTime: int): (t: int)
    ensures n == 1 ==> t == 200
    ensures (n == 0 || 2 <= n <= 10) ==> t == 400
    ensures n > 10 ==> t == moveTime
    ensures moveTime <= 600 ==> t <= 600
  {
    if n == 1 then 200 else if n <= 10 then 400 else moveTime
  }

  /** One lockstep move of a cell: shift an enemy and advance its animation frame. */
  function MoveCell(cell: Option<Enemy>, dx: int, dy: int): (r: Option<Enemy>)
    ensures r.Some? <==> cell.Some?
    ensures r.Some? ==> r.value.row == cell.value.row && r.value.column == cell.value.column
    ensures r.Some? ==> r.value.x - cell.value.x == dx && r.value.y - cell.value.y == dy
  {
    match cell
    case None => None
    case Some(e) => Some(e.(x := e.x + dx, y := e.y + dy, index := ToggleIndex(e.index)))
  }

  /** `bottom` as recomputed on a descent: the greatest y + 35 over living enemies, and 0 if none. */
  function MaxExtent(s: seq<Option<Enemy>>): int
  {
    if s == [] then 0
    else
      var b := MaxExtent(s[..|s| - 1]);
      match s[|s| - 1]
      case None => b
      case Some(e) => if b < e.y + ENEMY_HEIGHT then e.y + ENEMY_HEIGHT else b
  }

  /** Initial x of a column: columns 0-4 start at 0, 50, ..., 200 and columns 5-9 at 400, ..., 600. */
  function StartX(column: int): (x: int)
    requires 0 <= column < COLUMNS
    ensures x < 400 <==> column < 5
    ensures 0 <= x <= 600
  {
    if column < 5 then column * 50 else 400 + (column - 5) * 50
  }

  lemma {:induction false} CountClear(s: seq<Option<Enemy>>, i: int)
    requires 0 <= i < |s| && s[i].Some?
    ensures Count(s[i := None]) == Count(s) - 1
    decreases |s|
  {
    var n := |s| - 1;
    var t := s[i := None];
    if i < n {
      assert t[..n] == s[..n][i := None];
      CountClear(s[..n], i);
    } else {
      assert t[..n] == s[..n];
    }
  }

  /** `list(range(lo, hi))` is increasing and holds exactly lo, ..., hi - 1. */
  lemma {:induction false} RangeFacts(lo: int, hi: int)
    ensures forall i, j :: 0 <= i < j < |Range(lo, hi)| ==> Range(lo, hi)[i] < Range(lo, hi)[j]
    ensures forall c :: c in Range(lo, hi) <==> lo <= c < hi
    decreases hi - lo
  {
    if lo < hi {
      RangeFacts(lo + 1, hi);
      var r := Range(lo + 1, hi);
      assert forall i :: 0 <= i < |r| ==> lo < r[i] by {
        forall i | 0 <= i < |r| ensures lo < r[i] { assert r[i] in r; }
      }
    }
  }

  /** `list.remove(v)` shortens the list by one when v is present and leaves it as it is otherwise. */
  lemma {:induction false} RemoveValueLength(xs: seq<int>, v: int)
    ensures v in xs ==> |RemoveValue(xs, v)| == |xs| - 1
    ensures v !in xs ==> RemoveValue(xs, v) == xs
  {
    if xs != [] && xs[0] != v {
      RemoveValueLength(xs[1..], v);
      assert v in xs <==> v in xs[1..];
      assert xs == [xs[0]] + xs[1..];
    }
  }

  /** On an increasing list, `list.remove(v)` keeps it increasing and drops exactly v. */
  lemma {:induction false} RemoveValueFacts(xs: seq<int>, v: int)
    requires forall i, j :: 0 <= i < j < |xs| ==> xs[i] < xs[j]
    ensures forall i, j :: 0 <= i < j < |RemoveValue(xs, v)| ==> RemoveValue(xs, v)[i] < RemoveValue(xs, v)[j]
    ensures forall c :: c in RemoveValue(xs, v) <==> c in xs && c != v
  {
    if xs != [] {
      if xs[0] == v {
        assert forall c :: c in xs[1..] ==> c != v by {
          forall c | c in xs[1..] ensures c != v {
            var k :| 0 <= k < |xs[1..]| && xs[1..][k] == c;
            assert xs[k + 1] == c;
          }
        }
      } else {
        RemoveValueFacts(xs[1..], v);
        var rest := RemoveValue(xs[1..], v);
        assert forall c :: c in rest ==> xs[0] < c by {
          forall c | c in rest ensures xs[0] < c {
            assert c in xs[1..];
            var k :| 0 <= k < |xs[1..]| && xs[1..][k] == c;
            assert xs[k + 1] == c;
          }
        }
        assert RemoveValue(xs, v) == [xs[0]] + rest;
        forall i, j | 0 <= i < j < |[xs[0]] + rest|
          ensures ([xs[0]] + rest)[i] < ([xs[0]] + rest)[j]
        {
          if i == 0 {
            assert ([xs[0]] + rest)[j] in rest;
          }
        }
      }
    }
  }

  /**
   * The formation is non-empty exactly when `_aliveColumns` is: this is why
   * `random_bottom` always has a column to draw from when the group holds enemies.
   */
  lemma AliveColumnsNonEmpty(s: Grid, xs: seq<int>)
    requires |s| == CELLS && ListsAliveColumns(s, xs)
    ensures Count(s) > 0 <==> xs != []
  {
    if Count(s) > 0 {
      var i :| 0 <= i < CELLS && s[i].Some?;
      var r, c := i / 10, i % 10;
      assert i == r * 10 + c;
      assert At(s, r, c) == s[i];
      assert c in xs;
    }
    if xs != [] {
      var c := xs[0];
      assert c in xs;
      var r :| 0 <= r < ROWS && At(s, r, c).Some?;
      assert s[r * 10 + c] == At(s, r, c);
    }
  }

  lemma IndexInjective(r1: int, c1: int, r2: int, c2: int)
    requires 0 <= c1 < COLUMNS && 0 <= c2 < COLUMNS
    requires r1 != r2 || c1 != c2
    ensures r1 * 10 + c1 != r2 * 10 + c2
  {
  }

  /** Writing one cell changes that cell of the grid and no other. */
  lemma AtUpdate(s: Grid, row: int, column: int, v: Option<Enemy>)
    requires |s| == CELLS && 0 <= row < ROWS && 0 <= column < COLUMNS
    ensures forall r, c :: 0 <= r < ROWS && 0 <= c < COLUMNS ==>
      At(s[row * 10 + column := v], r, c) == if r == row && c == column then v else At(s, r, c)
  {
    forall r, c | 0 <= r < ROWS && 0 <= c < COLUMNS && (r != row || c != column)
      ensures At(s[row * 10 + column := v], r, c) == At(s, r, c)
    {
      IndexInjective(r, c, row, column);
    }
    assert At(s[row * 10 + column := v], row, column) == v;
  }

  /** Clearing one occupied cell: what changes and what does not. */
  lemma ClearCell(s0: Grid, row: int, column: int)
    requires |s0| == CELLS && GridOk(s0)
    requires 0 <= row < ROWS && 0 <= column < COLUMNS && At(s0, row, column).Some?
    ensures var s := s0[row * 10 + column := None];
      && GridOk(s)
      && !ColumnDead(s0, column)
      && (forall k :: 0 <= k < COLUMNS ==> ColumnDead(s0, k) ==> ColumnDead(s, k))
      && (forall k :: 0 <= k < COLUMNS && k != column ==> ColumnDead(s, k) == ColumnDead(s0, k))
      && Count(s) == Count(s0) - 1
  {
    var s := s0[row * 10 + column := None];
    forall r, c | 0 <= r < ROWS && 0 <= c < COLUMNS && (r != row || c != column)
      ensures At(s, r, c) == At(s0, r, c)
    {
      IndexInjective(r, c, row, column);
    }
    forall k | 0 <= k < COLUMNS && k != column
      ensures ColumnDead(s, k) == ColumnDead(s0, k)
    {
      assert forall r :: 0 <= r < ROWS ==> At(s, r, k) == At(s0, r, k);
    }
    CountClear(s0, row * 10 + column);
  }

  /**
   * The edge invariant survives `kill`: the right edge walks down when the
   * killed enemy was in the right edge column, otherwise the left edge walks
   * up when it was in the left edge column.
   */
  lemma EdgesAfterKill(s0: Grid, s: Grid, column: int, left0: int, right0: int)
    requires |s0| == |s| == CELLS && 0 <= column < COLUMNS
    requires !ColumnDead(s0, column)
    requires forall k :: 0 <= k < COLUMNS ==> ColumnDead(s0, k) ==> ColumnDead(s, k)
    requires forall k :: 0 <= k < COLUMNS && k != column ==> ColumnDead(s, k) == ColumnDead(s0, k)
    requires EdgesOk(s0, left0, right0)
    ensures 0 <= left0 <= column <= right0 < COLUMNS
    ensures column == right0 ==> EdgesOk(s, left0, WalkDown(s, right0))
    ensures column != right0 ==> WalkUp(s, column) <= right0
    ensures column != right0 && column == left0 ==> EdgesOk(s, WalkUp(s, left0), right0)
    ensures column != right0 && column != left0 ==> EdgesOk(s, left0, right0)
  {
    if column == right0 {
      var right := WalkDown(s, right0);
      if exists c :: 0 <= c < COLUMNS && !ColumnDead(s, c) {
        var c :| 0 <= c < COLUMNS && !ColumnDead(s, c);
        assert c <= right;
      }
    } else {
      assert !ColumnDead(s, right0);
      var left := WalkUp(s, column);
      if column == left0 {
        assert left <= right0;
      }
    }
  }

  /** The group invariant on its values: cells in place, the column list exact, the edges right. */
  ghost predicate Shape(s: Grid, xs: seq<int>, left: int, right: int)
    requires |s| == CELLS
  {
    GridOk(s) && ListsAliveColumns(s, xs) && EdgesOk(s, left, right)
  }

  /**
   * `kill` keeps the group invariant: after the cell is emptied, the column
   * leaves the list exactly when it died, and the walked edges are again the
   * outermost alive columns.
   */
  lemma KillKeepsShape(s0: Grid, xs0: seq<int>, left0: int, right0: int, row: int, column: int,
                       s: Grid, xs: seq<int>, left: int, right: int)
    requires |s0| == CELLS && Shape(s0, xs0, left0, right0)
    requires 0 <= row < ROWS && 0 <= column < COLUMNS && At(s0, row, column).Some?
    requires s == s0[row * 10 + column := None]
    requires xs == if ColumnDead(s, column) then RemoveValue(xs0, column) else xs0
    requires left == if column != right0 && column == left0 then WalkUp(s, column) else left0
    requires right == if column == right0 then WalkDown(s, column) else right0
    ensures Shape(s, xs, left, right)
    ensures Count(s) == Count(s0) - 1
  {
    ClearCell(s0, row, column);
    EdgesAfterKill(s0, s, column, left0, right0);
    if ColumnDead(s, column) {
      RemoveValueFacts(xs0, column);
    }
  }

  /** The left-edge walk of `kill` stays inside the grid: a column right of it is still alive. */
  lemma KillLeftWalkBounded(s0: Grid, left0: int, right0: int, row: int, column: int)
    requires |s0| == CELLS && GridOk(s0) && EdgesOk(s0, left0, right0)
    requires 0 <= row < ROWS && 0 <= column < COLUMNS && At(s0, row, column).Some?
    requires column != right0
    ensures WalkUp(s0[row * 10 + column := None], column) < COLUMNS
  {
    var s := s0[row * 10 + column := None];
    ClearCell(s0, row, column);
    EdgesAfterKill(s0, s, column, left0, right0);
  }

  /**
   * The right-edge loop of `kill`: from the killed enemy's column, step down
   * while the column is dead and the edge is above 0.
   */
  method WalkRightEdge(s: Grid, column: int, dead: bool) returns (right: int)
    requires |s| == CELLS && 0 <= column < COLUMNS && dead == ColumnDead(s, column)
    ensures right == WalkDown(s, column)
  {
    right := column;
    var isDead := dead;
    while right > 0 && isDead
      invariant 0 <= right <= column
      invariant isDead == ColumnDead(s, right)
      invariant WalkDown(s, right) == WalkDown(s, column)
      decreases right
    {
      right := right - 1;
      isDead := ColumnDead(s, right);
    }
  }

  /**
   * The left-edge loop of `kill`: step up while the column is dead; the walk
   * stops at an alive column before running off the grid.
   */
  method WalkLeftEdge(s: Grid, column: int, dead: bool) returns (left: int)
    requires |s| == CELLS && 0 <= column < COLUMNS && dead == ColumnDead(s, column)
    requires WalkUp(s, column) < COLUMNS
    ensures left == WalkUp(s, column)
  {
    left := column;
    var isDead := dead;
    while left < COLUMNS && isDead
      invariant column <= left <= WalkUp(s, column) < COLUMNS
      invariant isDead == ColumnDead(s, left)
      invariant WalkUp(s, left) == WalkUp(s, column)
      decreases COLUMNS - left
    {
      left := left + 1;
      isDead := ColumnDead(s, left);
    }
  }

  /**
   * The body of `kill` on the group's values: empty the enemy's cell, drop
   * its column from the list if the column is now dead, then walk the right
   * edge down if the enemy was in the right edge column, or else the left
   * edge up if it was in the left edge column.
   */
  method KillCell(s0: Grid, columns0: seq<int>, left0: int, right0: int, row: int, column: int)
    returns (s: Grid, columns: seq<int>, left: int, right: int)
    requires |s0| == CELLS && Shape(s0, columns0, left0, right0)
    requires 0 <= row < ROWS && 0 <= column < COLUMNS && At(s0, row, column).Some?
    ensures s == s0[row * 10 + column := None]
    ensures Count(s) == Count(s0) - 1
    ensures right == if column == right0 then WalkDown(s, column) else right0
    ensures left == if column != right0 && column == left0 then WalkUp(s, column) else left0
    ensures Shape(s, columns, left, right)
  {
    s := s0[row * 10 + column := None];
    columns, left, right := columns0, left0, right0;
    var dead := ColumnDead(s, column);
    if dead {
      columns := RemoveValue(columns, column);
    }
    if column == right {
      right := WalkRightEdge(s, column, dead);
    } else if column == left {
      KillLeftWalkBounded(s0, left0, right0, row, column);
      left := WalkLeftEdge(s, column, dead);
    }
    KillKeepsShape(s0, columns0, left0, right0, row, column, s, columns, left, right);
  }

  class EnemiesGroup {
    /** The grid, row-major; written in place by `Add` and `Kill`, moved by `Update`. */
    var cells: Grid
    /** `_aliveColumns`: the columns that still hold an enemy, in increasing order. */
    var aliveColumns: seq<int>
    var leftAliveColumn: int
    var rightAliveColumn: int
    /** Milliseconds between two lockstep moves. */
    var moveTime: int
    var direction: int
    const moves: int
    var moveNumber: int
    var timer: int
    /** Lowest extent of the formation, used by the ground-contact rules. */
    var bottom: int

    ghost predicate Valid()
      reads this
    {
      && |cells| == CELLS
      && Shape(cells, aliveColumns, leftAliveColumn, rightAliveColumn)
      && moves == MOVES && 0 <= moveNumber <= moves
      && (direction == 1 || direction == -1)
      && moveTime in {200, 400, 600}
    }

    /**
     * An empty group; `MakeEnemies` fills it. With no enemy but all ten
     * columns listed as alive, it does not satisfy `Valid()`: only the filled
     * group that `MakeEnemies` returns does.
     */
    constructor (enemyPosition: int, now: int)
      ensures |cells| == CELLS
      ensures forall i :: 0 <= i < CELLS ==> cells[i].None?
      ensures aliveColumns == Range(0, COLUMNS)
      ensures leftAliveColumn == 0 && rightAliveColumn == COLUMNS - 1
      ensures moveTime == 600 && direction == 1 && moves == MOVES && moveNumber == 0
      ensures timer == now && bottom == enemyPosition + (ROWS - 1) * 45 + 35
    {
      cells := seq(CELLS, _ => None);
      moveTime := 600;
      direction := 1;
      moves := MOVES;
      moveNumber := 0;
      timer := now;
      bottom := enemyPosition + (ROWS - 1) * 45 + 35;
      aliveColumns := Range(0, COLUMNS);
      leftAliveColumn := 0;
      rightAliveColumn := COLUMNS - 1;
    }

    /** `add_internal`: put the enemy into the cell of its row and column. */
    method Add(e: Enemy)
      requires |cells| == CELLS && 0 <= e.row < ROWS && 0 <= e.column < COLUMNS
      modifies this`cells
      ensures cells == old(cells)[e.row * 10 + e.column := Some(e)]
    {
      cells := cells[e.row * 10 + e.column := Some(e)];
    }

    /**
     * `kill`: empty the enemy's cell, drop its column from `aliveColumns` if
     * the column is now dead, then walk the right edge down if the enemy was
     * in the right edge column, or else the left edge up if it was in the
     * left edge column.
     */
    method Kill(row: int, column: int)
      requires Valid()
      requires 0 <= row < ROWS && 0 <= column < COLUMNS && At(cells, row, column).Some?
      modifies this`cells, this`aliveColumns, this`leftAliveColumn, this`rightAliveColumn
      ensures cells == old(cells)[row * 10 + column := None]
      ensures Count(cells) == Count(old(cells)) - 1
      ensures rightAliveColumn ==
        if column == old(rightAliveColumn) then WalkDown(cells, column) else old(rightAliveColumn)
      ensures leftAliveColumn ==
        if column != old(rightAliveColumn) && column == old(leftAliveColumn)
        then WalkUp(cells, column) else old(leftAliveColumn)
      ensures Valid()
    {
      cells, aliveColumns, leftAliveColumn, rightAliveColumn :=
        KillCell(cells, aliveColumns, leftAliveColumn, rightAliveColumn, row, column);
    }

    /** `update_speed`: 200 ms for the last enemy, 400 ms for at most ten, otherwise unchanged. */
    method UpdateSpeed()
      requires Valid()
      modifies this`moveTime
      ensures Valid()
      ensures moveTime == NextMoveTime(Count(cells), old(moveTime))
    {
      var n := Count(cells);
      if n == 1 {
        moveTime := 200;
      } else if n <= 10 {
        moveTime := 400;
      }
    }

    /** `remove_internal`: kill the enemy, then update the speed. */
    method RemoveInternal(row: int, column: int)
      requires Valid()
      requires 0 <= row < ROWS && 0 <= column < COLUMNS && At(cells, row, column).Some?
      modifies this`cells, this`aliveColumns, this`leftAliveColumn, this`rightAliveColumn, this`moveTime
      ensures Valid()
      ensures cells == old(cells)[row * 10 + column := None]
      ensures Count(cells) == Count(old(cells)) - 1
      ensures moveTime == NextMoveTime(Count(cells), old(moveTime))
      ensures rightAliveColumn ==
        if column == old(rightAliveColumn) then WalkDown(cells, column) else old(rightAliveColumn)
      ensures leftAliveColumn ==
        if column != old(rightAliveColumn) && column == old(leftAliveColumn)
        then WalkUp(cells, column) else old(leftAliveColumn)
    {
      Kill(row, column);
      UpdateSpeed();
    }

    /**
     * `random_bottom` with the random column passed in: the enemy with the
     * greatest row index in the chosen column; never None, since the column
     * is drawn from `aliveColumns`.
     */
    function RandomBottom(choice: int): (e: Option<Enemy>)
      reads this
      requires Valid() && 0 <= choice < COLUMNS && choice in aliveColumns
      ensures e.Some? && e.value.column == choice && 0 <= e.value.row < ROWS
      ensures At(cells, e.value.row, choice) == e
      ensures forall r :: e.value.row < r < ROWS ==> At(cells, r, choice).None?
    {
      LowestIn(cells, choice, ROWS)
    }

    /**
     * `update`: once more than `moveTime` has passed since `timer`, either
     * shift every enemy 10 px in the current direction, or, after 15 shifts,
     * turn, descend 35 px and recompute `bottom`; `timer` advances by exactly
     * `moveTime`.
     */
    method Update(currentTime: int)
      requires Valid()
      modifies this`cells, this`timer, this`moveNumber, this`direction, this`bottom
      ensures Valid()
      ensures currentTime - old(timer) <= moveTime ==>
        && cells == old(cells) && timer == old(timer) && moveNumber == old(moveNumber)
        && direction == old(direction) && bottom == old(bottom)
      ensures currentTime - old(timer) > moveTime ==> timer == old(timer) + moveTime
      ensures currentTime - old(timer) > moveTime && old(moveNumber) < moves ==>
        && (forall i :: 0 <= i < CELLS ==> cells[i] == MoveCell(old(cells[i]), 10 * direction, 0))
        && moveNumber == old(moveNumber) + 1 && direction == old(direction) && bottom == old(bottom)
      ensures currentTime - old(timer) > moveTime && old(moveNumber) >= moves ==>
        && (forall i :: 0 <= i < CELLS ==> cells[i] == MoveCell(old(cells[i]), 0, ENEMY_MOVE_DOWN))
        && direction == -old(direction) && moveNumber == 0
        && bottom == MaxExtent(cells)
    {
      if currentTime - timer > moveTime {
        if moveNumber >= moves {
          direction := -direction;
          moveNumber := 0;
          var grid, lowest := Descend(cells);
          MoveKeepsShape(cells, grid, 0, ENEMY_MOVE_DOWN, aliveColumns, leftAliveColumn, rightAliveColumn);
          cells, bottom := grid, lowest;
        } else {
          var grid := Shift(cells, 10 * direction);
          MoveKeepsShape(cells, grid, 10 * direction, 0, aliveColumns, leftAliveColumn, rightAliveColumn);
          cells := grid;
          moveNumber := moveNumber + 1;
        }
        timer := timer + moveTime;
      }
    }
  }

  /**
   * The descent loop of `update`: every enemy moves 35 px down and toggles
   * its image, and `bottom` restarts from 0 and ends as the lowest extent.
   */
  method Descend(s: Grid) returns (t: Grid, bottom: int)
    requires |s| == CELLS
    ensures |t| == CELLS && forall i :: 0 <= i < CELLS ==> t[i] == MoveCell(s[i], 0, ENEMY_MOVE_DOWN)
    ensures bottom == MaxExtent(t)
  {
    t := s;
    bottom := 0;
    for i := 0 to CELLS
      invariant |t| == CELLS
      invariant forall j :: 0 <= j < i ==> t[j] == MoveCell(s[j], 0, ENEMY_MOVE_DOWN)
      invariant forall j :: i <= j < CELLS ==> t[j] == s[j]
      invariant bottom == MaxExtent(t[..i])
    {
      ghost var done := t[..i];
      match t[i] {
        case None =>
        case Some(e) =>
          var moved := e.(y := e.y + ENEMY_MOVE_DOWN, index := ToggleIndex(e.index));
          t := t[i := Some(moved)];
          if bottom < moved.y + ENEMY_HEIGHT {
            bottom := moved.y + ENEMY_HEIGHT;
          }
      }
      assert t[..i] == done;
      MaxExtentStep(t, i);
    }
    assert t[..CELLS] == t;
  }

  /** The sideways loop of `update`: every enemy moves dx px and toggles its image. */
  method Shift(s: Grid, dx: int) returns (t: Grid)
    requires |s| == CELLS
    ensures |t| == CELLS && forall i :: 0 <= i < CELLS ==> t[i] == MoveCell(s[i], dx, 0)
  {
    t := s;
    for i := 0 to CELLS
      invariant |t| == CELLS
      invariant forall j :: 0 <= j < i ==> t[j] == MoveCell(s[j], dx, 0)
      invariant forall j :: i <= j < CELLS ==> t[j] == s[j]
    {
      match t[i]
      case None =>
      case Some(e) =>
        t := t[i := Some(e.(x := e.x + dx, index := ToggleIndex(e.index)))];
    }
  }

  /**
   * `bottom` after a descent is the lowest extent of the formation: no enemy
   * reaches below it, and unless it is 0 some enemy reaches exactly to it.
   */
  lemma {:induction false} MaxExtentIsLowest(s: seq<Option<Enemy>>)
    ensures MaxExtent(s) >= 0
    ensures forall i :: 0 <= i < |s| && s[i].Some? ==> s[i].value.y + ENEMY_HEIGHT <= MaxExtent(s)
    ensures MaxExtent(s) == 0 || exists i :: 0 <= i < |s| && s[i].Some? && s[i].value.y + ENEMY_HEIGHT == MaxExtent(s)
  {
    if s != [] {
      var p := s[..|s| - 1];
      MaxExtentIsLowest(p);
      forall i | 0 <= i < |s| - 1
        ensures s[i] == p[i]
      {
      }
      if MaxExtent(s) != 0 && MaxExtent(s) == MaxExtent(p) {
        var i :| 0 <= i < |p| && p[i].Some? && p[i].value.y + ENEMY_HEIGHT == MaxExtent(p);
        assert s[i] == p[i];
      }
    }
  }

  /** A descent over an empty grid leaves `bottom` at 0. */
  lemma MaxExtentOfEmpty(s: seq<Option<Enemy>>)
    requires Count(s) == 0
    ensures MaxExtent(s) == 0
  {
    MaxExtentIsLowest(s);
  }

  /** Extending the scanned prefix by one cell raises the maximum by that cell's extent at most. */
  lemma MaxExtentStep(s: seq<Option<Enemy>>, i: int)
    requires 0 <= i < |s|
    ensures MaxExtent(s[..i + 1]) ==
      match s[i]
      case None => MaxExtent(s[..i])
      case Some(e) => if MaxExtent(s[..i]) < e.y + ENEMY_HEIGHT then e.y + ENEMY_HEIGHT else MaxExtent(s[..i])
  {
    assert s[..i + 1][..i] == s[..i];
  }

  /** A lockstep move keeps the group invariant: it changes no cell from empty to occupied or back. */
  lemma MoveKeepsShape(s: Grid, t: Grid, dx: int, dy: int, xs: seq<int>, left: int, right: int)
    requires |s| == |t| == CELLS
    requires forall i :: 0 <= i < CELLS ==> t[i] == MoveCell(s[i], dx, dy)
    requires Shape(s, xs, left, right)
    ensures Shape(t, xs, left, right)
  {
    MovePreservesShape(s, t, dx, dy);
    EdgesSame(s, t, left, right);
  }

  /** A lockstep move keeps which cells are occupied, so every alive-column fact carries over. */
  lemma MovePreservesShape(s: Grid, t: Grid, dx: int, dy: int)
    requires |s| == |t| == CELLS
    requires forall i :: 0 <= i < CELLS ==> t[i] == MoveCell(s[i], dx, dy)
    ensures GridOk(s) ==> GridOk(t)
    ensures forall k :: 0 <= k < COLUMNS ==> ColumnDead(t, k) == ColumnDead(s, k)
  {
    forall k | 0 <= k < COLUMNS
      ensures ColumnDead(t, k) == ColumnDead(s, k)
    {
      assert forall r :: 0 <= r < ROWS ==> At(t, r, k).Some? == At(s, r, k).Some?;
    }
    if GridOk(s) {
      forall r, c | 0 <= r < ROWS && 0 <= c < COLUMNS && At(t, r, c).Some?
        ensures At(t, r, c).value.row == r && At(t, r, c).value.column == c
      {
        assert At(t, r, c) == MoveCell(At(s, r, c), dx, dy);
      }
    }
  }

  /** The edge invariant depends only on which columns are dead. */
  lemma EdgesSame(s: Grid, t: Grid, left: int, right: int)
    requires |s| == |t| == CELLS
    requires forall k :: 0 <= k < COLUMNS ==> ColumnDead(t, k) == ColumnDead(s, k)
    requires EdgesOk(s, left, right)
    ensures EdgesOk(t, left, right)
  {
  }

  /** The enemy `make_enemies` puts at a row and column. */
  function Formed(enemyPosition: int, row: int, column: int): Enemy
    requires 0 <= column < COLUMNS
  {
    Enemy(row, column, StartX(column), enemyPosition + row * 45, 0)
  }

  /** Every cell holds the enemy `make_enemies` puts there: the whole 5 x 10 layout at `enemyPosition`. */
  ghost predicate FullFormation(s: Grid, enemyPosition: int)
    requires |s| == CELLS
  {
    forall r, c :: 0 <= r < ROWS && 0 <= c < COLUMNS ==> At(s, r, c) == Some(Formed(enemyPosition, r, c))
  }

  /** The grid `make_enemies` builds: in row-major order, the enemy of each cell's row and column. */
  function Layout(enemyPosition: int): (s: Grid)
    ensures |s| == CELLS
  {
    seq(CELLS, i requires 0 <= i < CELLS => Some(Formed(enemyPosition, i / 10, i % 10)))
  }

  /** The layout is exactly the full formation: a grid is full at `enemyPosition` if and only if it is the layout. */
  lemma LayoutIsFull(s: Grid, enemyPosition: int)
    requires |s| == CELLS
    ensures FullFormation(s, enemyPosition) <==> s == Layout(enemyPosition)
  {
    var l := Layout(enemyPosition);
    forall r, c | 0 <= r < ROWS && 0 <= c < COLUMNS
      ensures At(l, r, c) == Some(Formed(enemyPosition, r, c))
    {
      assert (r * 10 + c) / 10 == r && (r * 10 + c) % 10 == c;
    }
    if FullFormation(s, enemyPosition) {
      forall i | 0 <= i < CELLS
        ensures s[i] == l[i]
      {
        assert i == (i / 10) * 10 + i % 10;
        assert At(s, i / 10, i % 10) == s[i];
      }
    }
  }

  /** A grid with every cell occupied counts all of its cells. */
  lemma {:induction false} CountFull(s: seq<Option<Enemy>>)
    requires forall i :: 0 <= i < |s| ==> s[i].Some?
    ensures Count(s) == |s|
  {
    if s != [] {
      CountFull(s[..|s| - 1]);
    }
  }

  /** The cells `make_enemies` has filled before reaching a row and column, in row-major order. */
  ghost predicate FilledUpTo(s: Grid, enemyPosition: int, row: int, column: int)
    requires |s| == CELLS
  {
    forall r, c :: 0 <= r < ROWS && 0 <= c < COLUMNS ==>
      At(s, r, c) == if r < row || (r == row && c < column) then Some(Formed(enemyPosition, r, c)) else None
  }

  /** Adding the next enemy extends the filled prefix by one cell. */
  lemma FillStep(s: Grid, enemyPosition: int, row: int, column: int)
    requires |s| == CELLS && 0 <= row < ROWS && 0 <= column < COLUMNS
    requires FilledUpTo(s, enemyPosition, row, column)
    ensures FilledUpTo(s[row * 10 + column := Some(Formed(enemyPosition, row, column))], enemyPosition, row, column + 1)
  {
    var t := s[row * 10 + column := Some(Formed(enemyPosition, row, column))];
    AtUpdate(s, row, column, Some(Formed(enemyPosition, row, column)));
    forall r, c | 0 <= r < ROWS && 0 <= c < COLUMNS
      ensures At(t, r, c) ==
        if r < row || (r == row && c < column + 1) then Some(Formed(enemyPosition, r, c)) else None
    {
      if r != row || c != column {
        assert At(t, r, c) == At(s, r, c);
      }
    }
  }

  /**
   * `make_enemies`: a full 5 x 10 formation; rows are 45 px apart starting at
   * `enemyPosition`, the left five columns from x = 0 and the right five from
   * x = 400, 50 px apart.
   */
  method MakeEnemies(enemyPosition: int, now: int) returns (g: EnemiesGroup)
    ensures fresh(g) && g.Valid()
    ensures g.cells == Layout(enemyPosition)
    ensures Count(g.cells) == CELLS
    ensures g.moveTime == 600 && g.direction == 1 && g.moveNumber == 0 && g.timer == now
    ensures g.bottom == enemyPosition + (ROWS - 1) * 45 + 35
    ensures g.leftAliveColumn == 0 && g.rightAliveColumn == COLUMNS - 1
  {
    g := new EnemiesGroup(enemyPosition, now);
    for row := 0 to ROWS
      modifies g`cells
      invariant |g.cells| == CELLS && FilledUpTo(g.cells, enemyPosition, row, 0)
    {
      for column := 0 to 5
        modifies g`cells
        invariant |g.cells| == CELLS && FilledUpTo(g.cells, enemyPosition, row, column)
      {
        FillStep(g.cells, enemyPosition, row, column);
        g.Add(Enemy(row, column, column * 50, enemyPosition + row * 45, 0));
      }
      for column := 5 to COLUMNS
        modifies g`cells
        invariant |g.cells| == CELLS && FilledUpTo(g.cells, enemyPosition, row, column)
      {
        FillStep(g.cells, enemyPosition, row, column);
        g.Add(Enemy(row, column, 400 + (column - 5) * 50, enemyPosition + row * 45, 0));
      }
      assert FilledUpTo(g.cells, enemyPosition, row + 1, 0);
    }
    RangeFacts(0, COLUMNS);
    assert At(g.cells, 0, 0).Some?;
    LayoutIsFull(g.cells, enemyPosition);
    CountFull(g.cells);
  }
}

=== FILE: game.dfy ===
/**
 * The round rules of `SpaceInvaders`: life tokens, scoring of kills, ship
 * hits and ground contact, respawning, the shared player-bullet pool, enemy
 * fire, and the menu / game-over flag transitions.
 */
module Game {
  import opened Wrappers
  import opened Entities
  import opened Formation
  import opened Scoring
  import opened RoundSetup

  /** The three life tokens of one side; `one` is the last to go. */
  datatype Lives = Lives(one: bool, two: bool, three: bool)

  const FULL_LIVES := Lives(true, true, true)
  const NO_LIVES := Lives(false, false, false)

  /** Milliseconds a destroyed ship waits before it is recreated. */
  const RESPAWN_DELAY := 900
  /** Milliseconds between two enemy shots. */
  const ENEMY_FIRE_DELAY := 700
  /** Milliseconds the game-over screen stays before the menu returns. */
  const GAME_OVER_DELAY := 10000
  /** The formation threatens the ships from this bottom on, and has landed from the next. */
  const DANGER_BOTTOM := 540
  const LANDED_BOTTOM := 600
  /** The most player bullets the human may add to the shared pool. */
  const POOL_CAP := 2

  /** Tokens are lost from the top: a lower token is alive whenever a higher one is. */
  predicate Ordered(l: Lives)
  {
    (l.three ==> l.two) && (l.two ==> l.one)
  }

  function Remaining(l: Lives): (n: nat)
    ensures n <= 3
    ensures n == 0 <==> l == NO_LIVES
  {
    (if l.one then 1 else 0) + (if l.two then 1 else 0) + (if l.three then 1 else 0)
  }

  /** A bullet hit kills the highest token still alive: 3, then 2, then 1. */
  function LoseLife(l: Lives): (r: Lives)
    ensures Remaining(r) == if l == NO_LIVES then 0 else Remaining(l) - 1
    ensures Ordered(l) ==> Ordered(r)
    ensures (r.one ==> l.one) && (r.two ==> l.two) && (r.three ==> l.three)
    ensures l.one && !r.one ==> !l.two && !l.three
    ensures l.three ==> r.one == l.one && r.two == l.two
  {
    if l.three then l.(three := false)
    else if l.two then l.(two := false)
    else if l.one then l.(one := false)
    else l
  }

  /** Three hits take an ordered full side down to no lives, and not before. */
  lemma ThreeHitsEmptyASide(l: Lives)
    requires Ordered(l)
    ensures LoseLife(LoseLife(LoseLife(l))) == NO_LIVES
    ensures l == FULL_LIVES ==> LoseLife(LoseLife(l)).one
  {
  }


  class SpaceInvaders {
    var playerScore: int
    var otherScore: int
    var playerLives: Lives
    var otherLives: Lives
    var startGame: bool
    var mainScreen: bool
    var gameOver: bool
    var makeNewPlayer: bool
    var makeNewOther: bool
    /** Time of the last ship hit, for the respawn delay. */
    var shipTimer: int
    /** Time of the last enemy shot; also the start of the game-over screen. */
    var timer: int
    var enemyPosition: int
    /** Whether each ship sprite is currently in play. */
    var playerAlive: bool
    var otherAlive: bool
    /** The shared pool of upward player bullets, and the enemy bullets. */
    var bullets: seq<Bullet>
    var enemyBullets: seq<Bullet>
    var enemies: EnemiesGroup
    var mystery: Mystery
    var player: Ship
    var other: Ship

    /**
     * The game-level invariant is only the order of the life tokens. The
     * formation's own invariant `enemies.Valid()` is not part of it: it is
     * required and ensured by each operation that touches the formation, and
     * `Reset` re-establishes it with a fresh formation.
     */
    ghost predicate Valid()
      reads this
    {
      Ordered(playerLives) && Ordered(otherLives)
    }

    /**
     * The game starts on the menu with all six tokens alive; the round
     * objects are created here as `reset` would, and recreated by the menu.
     */
    constructor (now: int)
      ensures Valid()
      ensures mainScreen && !startGame && !gameOver
      ensures playerLives == FULL_LIVES && otherLives == FULL_LIVES
      ensures enemyPosition == ENEMY_DEFAULT_POSITION
    {
      var g := MakeEnemies(ENEMY_DEFAULT_POSITION, now);
      var m := new Mystery(now);
      var p := new Ship(true);
      var o := new Ship(false);
      enemies, mystery, player, other := g, m, p, o;
      playerScore, otherScore := 0, 0;
      playerLives, otherLives := FULL_LIVES, FULL_LIVES;
      startGame, mainScreen, gameOver := false, true, false;
      makeNewPlayer, makeNewOther := false, false;
      shipTimer, timer := now, now;
      enemyPosition := ENEMY_DEFAULT_POSITION;
      playerAlive, otherAlive := true, true;
      bullets, enemyBullets := [], [];
    }

    /**
     * `reset`: new ships, mystery ship and formation, empty bullet pools,
     * the timers restarted at `now`, the given scores, and no pending respawn.
     */
    method Reset(newPlayerScore: int, newOtherScore: int, now: int)
      modifies this`player, this`other, this`playerAlive, this`otherAlive, this`bullets,
               this`enemyBullets, this`mystery, this`enemies, this`timer, this`shipTimer,
               this`playerScore, this`otherScore, this`makeNewPlayer, this`makeNewOther
      ensures fresh(player) && fresh(other) && fresh(mystery) && fresh(enemies)
      ensures RoundStart(player, other, mystery, enemies, enemyPosition, now)
      ensures playerAlive && otherAlive && bullets == [] && enemyBullets == []
      ensures timer == now && shipTimer == now
      ensures playerScore == newPlayerScore && otherScore == newOtherScore
      ensures !makeNewPlayer && !makeNewOther
      ensures playerLives == old(playerLives) && otherLives == old(otherLives)
      ensures enemyPosition == old(enemyPosition)
    {
      ClearRoundState(newPlayerScore, newOtherScore, now);
      NewRoundObjects(now);
    }

    /** The plain fields `reset` sets: both ships alive, empty pools, timers at `now`, the given scores. */
    method ClearRoundState(newPlayerScore: int, newOtherScore: int, now: int)
      modifies this`playerAlive, this`otherAlive, this`bullets, this`enemyBullets, this`timer,
               this`shipTimer, this`playerScore, this`otherScore, this`makeNewPlayer, this`makeNewOther
      ensures playerAlive && otherAlive && bullets == [] && enemyBullets == []
      ensures timer == now && shipTimer == now
      ensures playerScore == newPlayerScore && otherScore == newOtherScore
      ensures !makeNewPlayer && !makeNewOther
    {
      playerAlive, otherAlive := true, true;
      bullets, enemyBullets := [], [];
      timer, shipTimer := now, now;
      playerScore, otherScore := newPlayerScore, newOtherScore;
      makeNewPlayer, makeNewOther := false, false;
    }

    /** The objects `reset` creates: both ships at home, a waiting mystery ship and a full formation. */
    method NewRoundObjects(now: int)
      modifies this`player, this`other, this`mystery, this`enemies
      ensures fresh(player) && fresh(other) && fresh(mystery) && fresh(enemies)
      ensures RoundStart(player, other, mystery, enemies, enemyPosition, now)
    {
      player := new Ship(true);
      other := new Ship(false);
      mystery := new Mystery(now);
      enemies := MakeEnemies(enemyPosition, now);
    }

    /**
     * The menu's key release: all six tokens come back, the round is reset
     * with both scores at 0, and play starts.
     */
    method StartFromMenu(now: int)
      modifies this`playerLives, this`otherLives, this`startGame, this`mainScreen,
               this`player, this`other, this`playerAlive, this`otherAlive, this`bullets,
               this`enemyBullets, this`mystery, this`enemies, this`timer, this`shipTimer,
               this`playerScore, this`otherScore, this`makeNewPlayer, this`makeNewOther
      ensures Valid()
      ensures playerLives == FULL_LIVES && otherLives == FULL_LIVES
      ensures playerScore == 0 && otherScore == 0
      ensures startGame && !mainScreen
      ensures gameOver == old(gameOver) && enemyPosition == old(enemyPosition)
      ensures fresh(player) && fresh(other) && fresh(mystery) && fresh(enemies)
      ensures RoundStart(player, other, mystery, enemies, enemyPosition, now)
      ensures playerAlive && otherAlive && bullets == [] && enemyBullets == []
      ensures timer == now && shipTimer == now
      ensures !makeNewPlayer && !makeNewOther
    {
      playerLives, otherLives := FULL_LIVES, FULL_LIVES;
      startGame, mainScreen := true, false;
      Reset(0, 0, now);
    }

    /**
     * `calculate_score`: the row's points go to the player when the column
     * (the mystery ship's x divided by 80 for row 5) is below 5, and to the
     * AI otherwise.
     */
    method CalculateScore(row: int, column: int, mysteryPoints: int) returns (score: int)
      requires 0 <= row <= MYSTERY_ROW && MysteryValue(mysteryPoints)
      modifies this`playerScore, this`otherScore
      ensures score == RowPoints(row, mysteryPoints) && score > 0
      ensures playerScore + otherScore == old(playerScore) + old(otherScore) + score
      ensures CreditsPlayer(row, column) ==> playerScore == old(playerScore) + score && otherScore == old(otherScore)
      ensures !CreditsPlayer(row, column) ==> otherScore == old(otherScore) + score && playerScore == old(playerScore)
    {
      score := RowPoints(row, mysteryPoints);
      var c := column;
      if row == MYSTERY_ROW {
        c := c / 80;
      }
      if c < 5 {
        playerScore := playerScore + score;
      } else {
        otherScore := otherScore + score;
      }
    }

    /** A player bullet destroys a formation enemy: remove it from the grid, then score it. */
    method EnemyHit(row: int, column: int, mysteryPoints: int)
      requires enemies.Valid()
      requires 0 <= row < ROWS && 0 <= column < COLUMNS && At(enemies.cells, row, column).Some?
      requires MysteryValue(mysteryPoints)
      modifies enemies`cells, enemies`aliveColumns, enemies`leftAliveColumn, enemies`rightAliveColumn,
               enemies`moveTime, this`playerScore, this`otherScore
      ensures enemies.Valid()
      ensures enemies.cells == old(enemies.cells)[row * 10 + column := None]
      ensures Count(enemies.cells) == Count(old(enemies.cells)) - 1
      ensures enemies.moveTime == NextMoveTime(Count(enemies.cells), old(enemies.moveTime))
      ensures enemies.rightAliveColumn ==
        if column == old(enemies.rightAliveColumn) then WalkDown(enemies.cells, column)
        else old(enemies.rightAliveColumn)
      ensures enemies.leftAliveColumn ==
        if column != old(enemies.rightAliveColumn) && column == old(enemies.leftAliveColumn)
        then WalkUp(enemies.cells, column) else old(enemies.leftAliveColumn)
      ensures playerScore + otherScore == old(playerScore) + old(otherScore) + RowPoints(row, mysteryPoints)
      ensures column < 5 ==> playerScore > old(playerScore) && otherScore == old(otherScore)
      ensures column >= 5 ==> otherScore > old(otherScore) && playerScore == old(playerScore)
    {
      enemies.RemoveInternal(row, column);
      var _ := CalculateScore(row, column, mysteryPoints);
    }

    /**
     * A player bullet destroys the mystery ship: score it by its x, and a new
     * mystery ship starts its wait from the left.
     */
    method MysteryHit(now: int, mysteryPoints: int) returns (score: int)
      requires MysteryValue(mysteryPoints)
      modifies this`playerScore, this`otherScore, this`mystery
      ensures score == mysteryPoints
      ensures old(mystery.x) < 400 ==> playerScore == old(playerScore) + score && otherScore == old(otherScore)
      ensures old(mystery.x) >= 400 ==> otherScore == old(otherScore) + score && playerScore == old(playerScore)
      ensures fresh(mystery) && mystery.Valid() && mystery.x == -80 && mystery.timer == now
      ensures mystery.y == 45 && mystery.direction == 1 && mystery.playSound
    {
      MysteryCreditsLeftHalf(mystery.x);
      score := CalculateScore(MYSTERY_ROW, mystery.x, mysteryPoints);
      mystery := new Mystery(now);
    }

    /**
     * An enemy bullet hits a ship: that side loses its highest token; losing
     * token 1 ends the game if the other side's token 1 is already gone; a
     * respawn is scheduled only while token 1 survives.
     */
    method ShipHit(human: bool, now: int)
      requires Valid()
      requires human ==> playerAlive
      requires !human ==> otherAlive
      modifies this`playerLives, this`otherLives, this`gameOver, this`startGame, this`makeNewPlayer,
               this`makeNewOther, this`shipTimer, this`playerAlive, this`otherAlive
      ensures Valid()
      ensures human ==> playerLives == LoseLife(old(playerLives)) && otherLives == old(otherLives)
      ensures !human ==> otherLives == LoseLife(old(otherLives)) && playerLives == old(playerLives)
      ensures var lost := if human then old(playerLives) else old(otherLives);
        var kept := if human then otherLives else playerLives;
        var ends := lost.one && !lost.two && !lost.three && !kept.one;
        gameOver == (old(gameOver) || ends) && startGame == (old(startGame) && !ends)
      ensures human ==>
        && !playerAlive && otherAlive == old(otherAlive)
        && makeNewPlayer == (old(makeNewPlayer) || playerLives.one) && makeNewOther == old(makeNewOther)
      ensures !human ==>
        && !otherAlive && playerAlive == old(playerAlive)
        && makeNewOther == (old(makeNewOther) || otherLives.one) && makeNewPlayer == old(makeNewPlayer)
      ensures shipTimer == now
    {
      if human {
        if playerLives.three {
          playerLives := playerLives.(three := false);
        } else if playerLives.two {
          playerLives := playerLives.(two := false);
        } else if playerLives.one {
          playerLives := playerLives.(one := false);
          if !otherLives.one {
            gameOver, startGame := true, false;
          }
        }
        playerAlive := false;
        if playerLives.one {
          makeNewPlayer := true;
        }
      } else {
        if otherLives.three {
          otherLives := otherLives.(three := false);
        } else if otherLives.two {
          otherLives := otherLives.(two := false);
        } else if otherLives.one {
          otherLives := otherLives.(one := false);
          if !playerLives.one {
            gameOver, startGame := true, false;
          }
        }
        otherAlive := false;
        if otherLives.one {
          makeNewOther := true;
        }
      }
      shipTimer := now;
    }

    /**
     * The formation enemies that overlap a ship when the ships collide with
     * the formation are removed from it, as a kill without a score.
     */
    method CrushOverlapped(crushed: seq<(int, int)>)
      requires enemies.Valid()
      requires forall k :: 0 <= k < |crushed| ==>
        0 <= crushed[k].0 < ROWS && 0 <= crushed[k].1 < COLUMNS && At(enemies.cells, crushed[k].0, crushed[k].1).Some?
      requires forall j, k :: 0 <= j < k < |crushed| ==> crushed[j] != crushed[k]
      modifies enemies`cells, enemies`aliveColumns, enemies`leftAliveColumn, enemies`rightAliveColumn,
               enemies`moveTime
      ensures enemies.Valid()
      ensures Count(enemies.cells) == Count(old(enemies.cells)) - |crushed|
      ensures |crushed| > 0 ==> enemies.moveTime == NextMoveTime(Count(enemies.cells), old(enemies.moveTime))
      ensures |crushed| == 0 ==> enemies.moveTime == old(enemies.moveTime)
      ensures forall r, c :: 0 <= r < ROWS && 0 <= c < COLUMNS ==>
        At(enemies.cells, r, c) == if (r, c) in crushed then None else At(old(enemies.cells), r, c)
    {
      for k := 0 to |crushed|
        modifies enemies`cells, enemies`aliveColumns, enemies`leftAliveColumn, enemies`rightAliveColumn,
                 enemies`moveTime
        invariant enemies.Valid()
        invariant Count(enemies.cells) == Count(old(enemies.cells)) - k
        invariant k == 0 ==> enemies.moveTime == old(enemies.moveTime)
        invariant k > 0 ==> enemies.moveTime == NextMoveTime(Count(enemies.cells), old(enemies.moveTime))
        invariant forall r, c :: 0 <= r < ROWS && 0 <= c < COLUMNS ==>
          At(enemies.cells, r, c) == if (r, c) in crushed[..k] then None else At(old(enemies.cells), r, c)
      {
        var (row, column) := crushed[k];
        assert (row, column) !in crushed[..k];
        ghost var before := enemies.cells;
        enemies.RemoveInternal(row, column);
        AtUpdate(before, row, column, None);
        assert crushed[..k + 1] == crushed[..k] + [(row, column)];
      }
      assert crushed[..|crushed|] == crushed;
    }

    /**
     * Ground contact, once the formation's bottom reaches 540: a ship the
     * formation overlaps loses all its tokens; from 600 on, the human side
     * is eliminated while the left edge column is below 5 and the AI side
     * while the right edge column is 5 or more; with both ships gone the
     * game is over.
     */
    method GroundContact(overlapHuman: bool, overlapOther: bool)
      requires Valid()
      requires overlapHuman ==> playerAlive
      requires overlapOther ==> otherAlive
      modifies this`playerLives, this`otherLives, this`playerAlive, this`otherAlive,
               this`gameOver, this`startGame
      ensures Valid()
      ensures enemies.bottom < DANGER_BOTTOM ==>
        && playerLives == old(playerLives) && otherLives == old(otherLives)
        && playerAlive == old(playerAlive) && otherAlive == old(otherAlive)
        && gameOver == old(gameOver) && startGame == old(startGame)
      ensures enemies.bottom >= DANGER_BOTTOM ==>
        var landed := enemies.bottom >= LANDED_BOTTOM;
        var humanOut := landed && enemies.leftAliveColumn < 5;
        var otherOut := landed && enemies.rightAliveColumn >= 5;
        && playerLives == (if overlapHuman || humanOut then NO_LIVES else old(playerLives))
        && otherLives == (if overlapOther || otherOut then NO_LIVES else old(otherLives))
        && playerAlive == (old(playerAlive) && !overlapHuman && !humanOut)
        && otherAlive == (old(otherAlive) && !overlapOther && !otherOut)
        && gameOver == (old(gameOver) || (!playerAlive && !otherAlive))
        && startGame == (old(startGame) && (playerAlive || otherAlive))
    {
      if enemies.bottom >= DANGER_BOTTOM {
        if overlapHuman {
          playerAlive := false;
          playerLives := NO_LIVES;
        }
        if overlapOther {
          otherAlive := false;
          otherLives := NO_LIVES;
        }
        if enemies.bottom >= LANDED_BOTTOM {
          if enemies.leftAliveColumn < 5 {
            playerAlive := false;
            playerLives := NO_LIVES;
          }
          if enemies.rightAliveColumn >= 5 {
            otherAlive := false;
            otherLives := NO_LIVES;
          }
        }
        if !playerAlive && !otherAlive {
          gameOver, startGame := true, false;
        }
      }
    }

    /**
     * `create_new_ship`: a pending ship is recreated at its home position once
     * more than 900 ms have passed since the last hit, and its flag cleared.
     */
    method CreateNewShip(createShip: bool, now: int, human: bool)
      modifies this`player, this`other, this`playerAlive, this`otherAlive,
               this`makeNewPlayer, this`makeNewOther
      ensures var due := createShip && now - shipTimer > RESPAWN_DELAY;
        && (due && human ==> fresh(player) && player.Valid() && player.human && player.x == HomeX(true)
                             && player.direction == -1 && playerAlive && !makeNewPlayer)
        && (due && !human ==> fresh(other) && other.Valid() && !other.human && other.x == HomeX(false)
                              && other.direction == -1 && otherAlive && !makeNewOther)
        && (!due || !human ==> player == old(player) && playerAlive == old(playerAlive)
                               && makeNewPlayer == old(makeNewPlayer))
        && (!due || human ==> other == old(other) && otherAlive == old(otherAlive)
                              && makeNewOther == old(makeNewOther))
    {
      if createShip && now - shipTimer > RESPAWN_DELAY {
        if human {
          player := new Ship(true);
          playerAlive := true;
          makeNewPlayer := false;
        } else {
          other := new Ship(false);
          otherAlive := true;
          makeNewOther := false;
        }
      }
    }

    /**
     * `check_input`'s firing: the AI fires into an empty pool while its token
     * 1 lives, then each space press lets the human fire while the pool holds
     * fewer than 2 bullets and the human's token 1 lives.
     */
    method CheckInput(spacePresses: nat)
      modifies this`bullets
      ensures |old(bullets)| <= POOL_CAP ==> |bullets| <= POOL_CAP
      ensures |bullets| >= |old(bullets)| && bullets[..|old(bullets)|] == old(bullets)
      ensures var aiFires := old(bullets) == [] && otherLives.one;
        var n := |old(bullets)| + (if aiFires then 1 else 0);
        && (aiFires ==> |bullets| >= 1 && bullets[0] == Bullet(other.x + 23, other.y + 5, -1, 15))
        && |bullets| == (if playerLives.one && n < POOL_CAP
                         then (if n + spacePresses < POOL_CAP then n + spacePresses else POOL_CAP)
                         else n)
        && (forall i :: n <= i < |bullets| ==> bullets[i] == Bullet(player.x + 23, player.y + 5, -1, 15))
    {
      if otherLives.one && |bullets| == 0 {
        bullets := bullets + [Bullet(other.x + 23, other.y + 5, -1, 15)];
      }
      ghost var n := |bullets|;
      ghost var start := bullets;
      var shot := Bullet(player.x + 23, player.y + 5, -1, 15);
      for k := 0 to spacePresses
        invariant |bullets| >= n && bullets[..n] == start
        invariant |bullets| == (if playerLives.one && n < POOL_CAP
                                then (if n + k < POOL_CAP then n + k else POOL_CAP) else n)
        invariant forall i :: n <= i < |bullets| ==> bullets[i] == shot
      {
        if playerLives.one && |bullets| < POOL_CAP {
          bullets := bullets + [shot];
        }
      }
    }

    /**
     * `make_enemies_shoot`: more than 700 ms after the last shot and while any
     * enemy lives, the lowest enemy of a column drawn from the alive columns
     * fires a bullet down, and the shot time is recorded.
     */
    method MakeEnemiesShoot(now: int, choice: int)
      requires enemies.Valid()
      requires choice in enemies.aliveColumns || enemies.aliveColumns == []
      modifies this`enemyBullets, this`timer
      ensures var fires := now - old(timer) > ENEMY_FIRE_DELAY && Count(enemies.cells) > 0;
        && (fires ==> 0 <= choice < COLUMNS && choice in enemies.aliveColumns
                      && var e := enemies.RandomBottom(choice).value;
                      enemyBullets == old(enemyBullets) + [Bullet(e.x + 14, e.y + 20, 1, 5)]
                      && timer == now)
        && (!fires ==> enemyBullets == old(enemyBullets) && timer == old(timer))
    {
      if now - timer > ENEMY_FIRE_DELAY && Count(enemies.cells) > 0 {
        AliveColumnsNonEmpty(enemies.cells, enemies.aliveColumns);
        var e := enemies.RandomBottom(choice).value;
        enemyBullets := enemyBullets + [Bullet(e.x + 14, e.y + 20, 1, 5)];
        timer := now;
      }
    }

    /**
     * The bullet part of the sprite update: both pools step, and bullets that
     * leave the playfield are dropped; the player pool never grows here.
     */
    method MoveBullets()
      modifies this`bullets, this`enemyBullets
      ensures bullets == Advance(old(bullets)) && enemyBullets == Advance(old(enemyBullets))
      ensures |bullets| <= |old(bullets)| && |enemyBullets| <= |old(enemyBullets)|
      ensures forall b :: b in bullets <==> exists i :: 0 <= i < |old(bullets)| && BulletUpdate(old(bullets)[i]) == Some(b)
      ensures forall b :: b in enemyBullets <==>
        exists i :: 0 <= i < |old(enemyBullets)| && BulletUpdate(old(enemyBullets)[i]) == Some(b)
    {
      AdvanceKeepsOnScreen(bullets);
      AdvanceKeepsOnScreen(enemyBullets);
      bullets, enemyBullets := Advance(bullets), Advance(enemyBullets);
    }

    /** The round is won once no enemy is left and every explosion has ended. */
    predicate RoundWon(explosionsActive: bool)
      reads this, enemies
    {
      Count(enemies.cells) == 0 && !explosionsActive
    }

    /**
     * With a valid formation, the round is won exactly when `aliveColumns` is
     * empty and no explosion is running: while the last explosions play out,
     * the frame loop keeps running on an empty formation.
     */
    lemma RoundWonWhenNoColumns(explosionsActive: bool)
      requires enemies.Valid()
      ensures RoundWon(explosionsActive) <==> enemies.aliveColumns == [] && !explosionsActive
    {
      AliveColumnsNonEmpty(enemies.cells, enemies.aliveColumns);
    }

    /**
     * A frame of the game-over (or round-won) screen: the enemy start
     * position returns to its default, and the menu comes back once more than
     * 10 s have passed since `timer`.
     */
    method ShowGameOver(now: int)
      modifies this`enemyPosition, this`mainScreen
      ensures enemyPosition == ENEMY_DEFAULT_POSITION
      ensures mainScreen == (old(mainScreen) || now - timer > GAME_OVER_DELAY)
    {
      enemyPosition := ENEMY_DEFAULT_POSITION;
      if now - timer > GAME_OVER_DELAY {
        mainScreen := true;
      }
    }
  }
}

=== FILE: round.dfy ===
/**
 * The state in which `reset` creates the objects of a new round: the two
 * ships, the mystery ship and the enemy formation.
 */
module RoundSetup {
  import opened Entities
  import opened Formation

  /**
   * The objects of a fresh round: both ships at home heading left, the
   * mystery ship waiting off the left edge, and the full formation at
   * `enemyPosition` about to step right at the slowest pace.
   */
  ghost predicate RoundStart(player: Ship, other: Ship, mystery: Mystery, enemies: EnemiesGroup,
                             enemyPosition: int, now: int)
    reads player, other, mystery, enemies
  {
    && player.Valid() && player.human && player.x == HomeX(true) && player.direction == -1
    && other.Valid() && !other.human && other.x == HomeX(false) && other.direction == -1
    && mystery.Valid() && mystery.x == -80 && mystery.direction == 1 && mystery.playSound
    && mystery.timer == now
    && enemies.Valid()
    && enemies.cells == Layout(enemyPosition)
    && enemies.moveTime == 600 && enemies.direction == 1 && enemies.moveNumber == 0
    && enemies.timer == now
    && enemies.bottom == enemyPosition + (ROWS - 1) * 45 + 35
  }
}

=== FILE: scoring.dfy ===
/**
 * The score table of `calculate_score` and the rule that decides which of the
 * two players is credited with a kill.
 */
module Scoring {
  /** Row 5 is the mystery ship's row; rows 0-4 are the formation. */
  const MYSTERY_ROW := 5

  /** The values `random.choice` may draw for the mystery ship. */
  predicate MysteryValue(points: int)
  {
    points == 50 || points == 100 || points == 150 || points == 300
  }

  /**
   * The points for a kill in a row: 30 for row 0, 20 for rows 1-2, 10 for
   * rows 3-4, and the drawn mystery value for row 5.
   */
  function RowPoints(row: int, mysteryPoints: int): (p: int)
    requires 0 <= row <= MYSTERY_ROW
    requires MysteryValue(mysteryPoints)
    ensures row == 0 ==> p == 30
    ensures (row == 1 || row == 2) ==> p == 20
    ensures (row == 3 || row == 4) ==> p == 10
    ensures row == MYSTERY_ROW ==> p == mysteryPoints
    ensures p > 0
  {
    if row == 0 then 30
    else if row <= 2 then 20
    else if row <= 4 then 10
    else mysteryPoints
  }

  /**
   * Whether the human player is credited: by the enemy's grid column for the
   * formation, and by the mystery ship's x divided (rounding down) by 80 for
   * row 5.
   */
  function CreditsPlayer(row: int, column: int): (r: bool)
    ensures row != MYSTERY_ROW ==> (r <==> column < 5)
  {
    (if row == MYSTERY_ROW then column / 80 else column) < 5
  }

  /** A row nearer the top of the formation (smaller index) is never worth less than one below it. */
  lemma RowPointsDecrease(r1: int, r2: int, m: int)
    requires 0 <= r1 <= r2 < MYSTERY_ROW && MysteryValue(m)
    ensures RowPoints(r1, m) >= RowPoints(r2, m)
    ensures RowPoints(r1, m) == RowPoints(r2, m) <==> r1 == r2 || (1 <= r1 && r2 <= 2) || 3 <= r1
  {
  }

  /**
   * The mystery ship counts for the left (human) half of the screen exactly
   * when its x is below 400, the middle line; `x // 80` rounds down also for
   * the negative x of a ship still entering from the left.
   */
  lemma MysteryCreditsLeftHalf(x: int)
    ensures CreditsPlayer(MYSTERY_ROW, x) <==> x < 400
  {
  }
}

=== FILE: wrappers.dfy ===
/** Optional values: `None` stands for Python's `None` (an empty grid cell, no shooter found). */
module Wrappers {
  datatype Option<+T> = None | Some(value: T)
}
